=== FILE: README.md ===
# arkady dispatch runtime, modelled in Dafny

arkady connects network messages to device objects. An `Application` holds
a registry from device names to components, a list of listeners and a
list of devices whose runners it starts. A router listener receives
multipart requests. It takes frames 0 and 1 as routing headers and frame 2
as the body. It splits the body into a device name and a message, and
hands the message to that device's `_handler`. The handler queues a bound
call. When a reply is awaited, it also records the routing headers and the
router's reply queue under a fresh id. The device's runner takes jobs in
order. A serial runner pops the recorded entry and then runs the job; an
asynchronous runner starts each job as a task, which runs the handler and
then pops the entry. Either way a `None` result becomes `ACK`, and
`headers + [reply]` is pushed onto the reply queue. The
router's transmit loop sends those replies back unchanged. A subscriber
listener does the same for publications, but never asks for a reply.
`GenericNanpy` is a serial device whose handler interprets commands such
as `aread 3` or `dwrite 13 high` against an Arduino board.

The model is a functional state machine.

- `Components`: a device is a FIFO of jobs, a correlation table, an id
  counter and, for asynchronous devices, the tasks in flight. `Enqueue`,
  `SerialStep`, `AsyncStart` and `AsyncComplete` are pure functions. Each
  runner iteration is one atomic step.
- `Runners`: interleaves enqueues, takes and task completions. It proves
  that jobs are taken in enqueue order and that the correlation invariant
  survives every interleaving. It also logs every request that awaits a
  reply, and proves that every reply on every queue is the reply to one
  logged request, for both disciplines and any order of task completion.
- `Listeners`: envelope parsing, lookup, enqueue and reply forwarding. It
  also proves that a reply carries its request's routing frames.
- `Application`: the registry, `add_*`, `api_register` and `run`.
- `Nanpy`: the command interpreter. The board is a parameter that answers
  each call or raises.
- `Text`: Python's `str.split()`, `split(maxsplit=1)`, `int()` on a word
  and `str()` of an int.
- `Utf8`: UTF-8 encoding and strict decoding, with both round trips
  proved.
- `Wrappers`: option and result types, and the Python exceptions the code
  raises.

Python exceptions become `Err` values or error fields. An exception that
escapes a runner ends that runner; the model's `RunState.halted` flag records
this.

## Model

| member | source | states |
|---|---|---|
| Components.NewComponent | src/arkady/components.py:28-33 | fails with `Exception('loop was not explicitly passed!')` exactly when no loop is given; otherwise the device starts with no job and no entry, and satisfies the invariant |
| Components.Enqueue | src/arkady/components.py:60-69 | appends one job at the tail, carrying the message and (only if given) the topic; with headers it adds exactly one entry `(headers, return_queue)` under an id not already in the table, namely the counter's next value, and the counter advances; without headers the table and the counter are unchanged and the job carries no id |
| Components.ReplyText | src/arkady/components.py:88-89 | a `None` result becomes the literal `ACK`; a string is sent as it is |
| Components.Reply | src/arkady/components.py:90 | the reply is the headers followed by one frame that decodes back to the reply text |
| Components.SerialStep | src/arkady/components.py:82-92 | waits on an empty queue; otherwise takes the head job. A missing entry is a KeyError, raised before the handler runs. A raising handler ends the runner. An entry without a queue is an AttributeError. In every other case the step succeeds. With an id, it removes exactly that entry and pushes `headers + [utf8(reply)]` onto that entry's queue, so no other queue changes. Without an id, the table and the queues are untouched |
| Components.AsyncStart | src/arkady/components.py:121-125 | moves the head job into the tasks in flight; what is outstanding, the table and the counter are unchanged |
| Components.AsyncComplete | src/arkady/components.py:104-118 | a finishing task runs the handler first. A raise ends only that task and keeps the entry. After a return, a missing entry is a KeyError, and the pop happens before the push, so an entry without a queue is removed and then an AttributeError. Otherwise the task succeeds: the entry is popped and `headers + [utf8(reply or ACK)]` is pushed onto its queue. Without an id the task succeeds exactly when the handler returns, and nothing is pushed |
| Components.EnqueuePreservesValid | src/arkady/components.py:60-69 | enqueue keeps the invariant (every outstanding id has its entry, no id is outstanding twice, every entry id was issued) and adds no orphan entry |
| Components.SerialStepNeverKeyError | src/arkady/components.py:84-86 | under the invariant the serial pop never misses |
| Components.SerialStepPreservesValid | src/arkady/components.py:84-90 | a serial step keeps the invariant; right after it the consumed entry is gone and no remaining job carries its id (Runners.SerialTakeConsumesForever makes this permanent) |
| Components.AsyncStartPreservesValid | src/arkady/components.py:121-125 | starting a task keeps the invariant |
| Components.AsyncCompleteNeverKeyError | src/arkady/components.py:117 | under the invariant the asynchronous pop never misses |
| Components.AsyncCompletePreservesValid | src/arkady/components.py:104-118 | a finishing task keeps the invariant whatever happens to it, and right after it no outstanding job carries the id it finished (Runners.FinishConsumesForever makes this permanent) |
| Components.AsyncRaiseLeavesOrphanEntry | src/arkady/components.py:110-118 | when a reply-awaiting handler raises in the asynchronous discipline, that completion keeps its entry in the table, pushes nothing, and leaves no outstanding job carrying its id, so the table is no longer tight |
| Components.FreshRequestReply | src/arkady/components.py:84-90 | a request enqueued with headers on an idle serial device is answered by its next step: the handler runs on the message, the table returns to what it was, and the reply queue gains exactly `headers + [utf8(reply or ACK)]` while other queues are unchanged |
| Components.EchoHandler | src/arkady/components.py:132-136 | the echo handler always returns, and its reply text is the message itself |
| Components.EchoReplies | src/arkady/components.py:132-136 | the echo device answers a request with its routing frames followed by the encoded message, and its table returns to what it was |
| Runners.HaltedStaysHalted | src/arkady/components.py:82-87 | once a handler exception has escaped the serial runner, nothing more happens to that device |
| Runners.TakenInEnqueueOrder | src/arkady/components.py:69-92 | under every interleaving of enqueues, takes and task ends, the calls taken are a prefix of the calls enqueued, in enqueue order; while the runner lives, taken followed by still-queued equals everything enqueued |
| Runners.ReplayPreservesValid | src/arkady/components.py:60-125 | every interleaving keeps the correlation invariant |
| Runners.ConsumedForever | src/arkady/components.py:60-125 | an id that was issued and has neither an entry nor a job carrying it stays so under every later interleaving: no put reissues it, no job carries it again, and it never regains an entry |
| Runners.SerialTakeConsumesForever | src/arkady/components.py:84-90 | the entry a serial runner pops is popped exactly once: after that take, whatever events follow, its id stays used up |
| Runners.FinishConsumesForever | src/arkady/components.py:104-118 | the entry a returning task pops is popped exactly once: after that completion, whatever events follow, its id stays used up |
| Runners.OrphanedForever | src/arkady/components.py:60-125 | an entry no outstanding job carries stays in the table, unchanged and uncarried, under every later interleaving of puts, takes and task ends: nothing ever pops it |
| Runners.RaisedTaskLeaksForever | src/arkady/components.py:104-118 | once a reply-awaiting task's handler raises, its entry is never popped, whatever events follow, and the table never becomes tight again |
| Runners.ReplayKeepsCorrelated | src/arkady/components.py:60-118 | under every interleaving, for both disciplines, with jobs queued and tasks finishing in any order: every entry holds its own request's headers and queue, every outstanding job carries its own request's call, every message on every queue replies to a logged request, and the log only grows |
| Runners.LoggedRequestsArePuts | src/arkady/components.py:60-69 | every logged request comes from a put with headers in the run (or was logged before it) |
| Runners.EveryReplyAnswersItsPut | src/arkady/components.py:60-118 | from a new component with empty queues, after any interleaving, every message on queue `q` is `headers + [utf8(reply or ACK)]` for some put of the run that named `q`, its own headers, and the handler's result on that put's own message and topic |
| Runners.HeaderlessNeverReplies | src/arkady/components.py:91-92 | a component fed only calls without headers, as a subscriber feeds it, never pushes onto any reply queue, whatever its discipline and however many jobs are queued or in flight |
| Listeners.BindAddress | src/arkady/listeners.py:22-23 | a router binds to the given address, or to `tcp://*:5555` |
| Listeners.ConnectAddress | src/arkady/listeners.py:81-82 | a subscriber connects to the given address, or to `tcp://localhost:5555` |
| Listeners.Topics | src/arkady/listeners.py:78-79 | a subscriber subscribes to the given topics, or to `['']` |
| Listeners.SplitNameMsg | src/arkady/listeners.py:39 | succeeds exactly when the body has at least two words, else ValueError. The name is the first word. The message's words are the remaining words. The message is a suffix of the body: leading whitespace dropped, trailing whitespace kept |
| Listeners.ParseRequest | src/arkady/listeners.py:34-39 | fewer than three frames is an IndexError; frames 0-1 are the headers; success exactly when frame 2 decodes and has two or more words, the name and the message's words then being the body's words |
| Listeners.ParsePublication | src/arkady/listeners.py:94-97 | fewer than two frames is an IndexError; success exactly when both frames decode and the body has two or more words; the topic re-encodes to frame 0 |
| Listeners.Lookup | src/arkady/listeners.py:40 | an unknown name is a KeyError |
| Listeners.RouterReceive | src/arkady/listeners.py:32-48 | a parse error or an unknown name enqueues nothing; on a hit exactly the named device is enqueued with frames 0-1, the message and the shared reply queue, and every other device is unchanged |
| Listeners.SubscriberReceive | src/arkady/listeners.py:93-100 | the same for a publication: a parse error is passed on, an unknown name is a KeyError, and otherwise exactly the named device gets the message with its topic and no headers |
| Listeners.Transmit | src/arkady/listeners.py:50-54 | sends the oldest queued reply unchanged and leaves the rest in order; other queues are untouched |
| Listeners.DrainSendsInOrder | src/arkady/listeners.py:50-54 | draining the reply queue sends exactly its contents in FIFO order |
| Listeners.ParseRequestOfEnvelope | src/arkady/listeners.py:36-39 | a request `[h0, h1, utf8(name + ' ' + msg)] + extra` parses back to exactly `(h0 h1, name, msg)` |
| Listeners.ParseRequestIgnoresTrailingFrames | src/arkady/listeners.py:36 | frames after the body never change the parse |
| Listeners.ParsePublicationOfEnvelope | src/arkady/listeners.py:95-97 | a publication `[utf8(topic), utf8(name + ' ' + msg)]` parses back to exactly `(topic, name, msg)` |
| Listeners.RequestReplyCorrelation | src/arkady/listeners.py:40-54 | after a router enqueue on an idle serial device (Runners.ReplayKeepsCorrelated covers queued jobs and both disciplines), the device's next step appends to the router's queue one reply. That reply is the request's own frames 0-1 followed by a frame decoding to the reply text. The device's table is as before the request |
| Listeners.EchoRoundTrip | src/arkady/listeners.py:32-54 | an echo device behind a router answers a request with exactly one message, its routing frames followed by the encoded message part of its body |
| Listeners.SubscriberNeverReplies | src/arkady/listeners.py:98-100 | a subscriber enqueue adds no entry to any table; on an idle serial device the next step succeeds or ends on the handler's raise, and changes no reply queue (Runners.HeaderlessNeverReplies covers queued jobs and both disciplines) |
| Application.NewApp | src/arkady/application.py:26-31 | a new application has no names, no devices, no listeners and an open context |
| Application.AddRouter | src/arkady/application.py:63 | appends exactly one router listener; nothing else changes |
| Application.AddSub | src/arkady/application.py:87 | appends exactly one subscriber listener; nothing else changes |
| Application.AddDevice | src/arkady/application.py:112-117 | builds the component with the application's loop, so construction succeeds. It appends the device to the device list and binds the name to it. Other names are unchanged; an existing binding is replaced silently |
| Application.AddDeviceRebindKeepsOldRunner | src/arkady/application.py:116-117 | rebinding a name leaves the old device in the device list, and the name moves to the new device; when no two names share a device, no name reaches the old one any more |
| Application.AddDeviceKeepsNamesDistinct | src/arkady/application.py:112-117 | adding a device binds its name to a new object, so no two names come to share a device |
| Application.AddDevicePreservesWellFormed | src/arkady/application.py:112-117 | adding a device keeps every reference valid and every device's invariant |
| Application.AddDeviceKeepsServed | src/arkady/application.py:112-117 | after adding a device every name is still served by a runner: the new name by the new device, every other name as before |
| Application.ApiRegister | src/arkady/application.py:119-123 | as written: a bound name gives ValueError with nothing changed; a fresh name is bound, then the call raises AttributeError without adding the device to the device list |
| Application.ApiRegisterIntended | src/arkady/application.py:119-123 | as intended: a bound name gives ValueError with nothing changed; a fresh name is bound and its device appended to the device list |
| Application.ApiRegisterIntendedPreservesWellFormed | src/arkady/application.py:119-123 | the intended registration keeps the application well formed and every name served |
| Application.ApiRegisterLeavesDeviceUnserved | src/arkady/application.py:122-123 | the written registration raises and leaves a name bound to a device no runner serves |
| Application.ApiRegisterCounterexample | src/arkady/application.py:123 | on a new application, registering `lamp` raises AttributeError and leaves it unserved, while the intended version serves it |
| Application.Run | src/arkady/application.py:89-110 | an empty registry is refused first, then an empty listener list, with their messages; otherwise the tasks are every listener in order followed by one runner per device-list entry, and the context ends terminated |
| Application.RunServesEveryName | src/arkady/application.py:101-105 | when every name is served, every device reachable by name has its runner among the gathered tasks |
| Application.RunAfterSetup | src/arkady/application.py:95-105 | an application with one device and one router passes both checks and gathers the router, then the device's runner |
| Application.RouterReceivePreservesWellFormed | src/arkady/listeners.py:40-48 | a router receive keeps the application well formed |
| Application.SubscriberReceivePreservesWellFormed | src/arkady/listeners.py:98-100 | a subscriber receive keeps the application well formed |
| Nanpy.AnalogReadOp | tests/nanpy_slave.py:24-27 | sets the pin to input, then reads it; the reading is the value |
| Nanpy.DigitalReadOp | tests/nanpy_slave.py:29-32 | sets the pin to input, then reads it; the reading is the value |
| Nanpy.AnalogWriteOp | tests/nanpy_slave.py:34-41 | no value argument raises; a value `int()` rejects gives the error string and no board call; otherwise pin to output, then write that integer; returns None |
| Nanpy.DigitalWriteOp | tests/nanpy_slave.py:43-49 | no value argument raises; otherwise pin to output, then HIGH for `high` and LOW for anything else; returns None |
| Nanpy.Dispatch | tests/nanpy_slave.py:53-58 | each of the four command words selects its own operation, called with the pin and the words after it |
| Nanpy.ReplyOf | tests/nanpy_slave.py:72-74 | `None` stays `None`; a number becomes text that `int()` turns back into it |
| Nanpy.HandleWords | tests/nanpy_slave.py:51-76 | fewer than two words, then a non-int pin, then an unknown keyword, each give their error string and touch no board; any board call is made only past all three checks and on the parsed pin |
| Nanpy.Handle | tests/nanpy_slave.py:51-76 | on the words of the message: a blank message is too short; then the three ordered checks with their exact strings; past them, the board calls are the operation's, a raising operation is reported with the whole message, and a value is replied as `str()` of it |
| Nanpy.HandleOfFormat | tests/nanpy_slave.py:51-76 | every formatted command is parsed back: the handler makes exactly the intended board calls and gives the intended reply, or stops at the raising call and reports the failure |
| Nanpy.DigitalWriteHighIff | tests/nanpy_slave.py:46-49 | `dwrite` writes HIGH if and only if the value word is `high`, LOW otherwise |
| Nanpy.AnalogWriteChecksValue | tests/nanpy_slave.py:36-41 | `awrite` with a non-integer value answers with the error string and no board call; with an integer it writes exactly that value and replies None |
| Nanpy.WriteWithoutValueFails | tests/nanpy_slave.py:69-76 | a write without a value word is reported as a failure of the whole message, with no board call |
| Nanpy.ReadReplyParses | tests/nanpy_slave.py:72-74 | a read replies with the decimal text of the reading, which parses back to it |
| Nanpy.NanpyRunnerNeverFails | tests/nanpy_slave.py:63-76 | the handler catches everything it can raise, so a NanPy device's runner steps through every job |
| Text.Words | tests/nanpy_slave.py:59 | every piece of `split()` is a word: non-empty, with no whitespace in it |
| Text.WordsEmptyIffBlank | tests/nanpy_slave.py:59-61 | `split()` yields no word exactly when the string is all whitespace |
| Text.WordsOfJoin | tests/nanpy_slave.py:59 | splitting words joined by single spaces gives back those words |
| Text.SplitOnce | src/arkady/listeners.py:39 | `split(maxsplit=1)` yields at most two parts |
| Text.SplitOnceAgreesWithWords | src/arkady/listeners.py:39 | `split(maxsplit=1)` yields min(2, word count) parts; the first is the first word, and the second holds exactly the remaining words |
| Text.SplitOnceRestIsSuffix | src/arkady/listeners.py:39 | the second part is a suffix of the body starting at a non-space |
| Text.SplitOnceOfJoin | src/arkady/listeners.py:39 | `(w + ' ' + text).split(maxsplit=1) == [w, text]` for a word `w` and a text starting at a non-space |
| Text.ParseInt | tests/nanpy_slave.py:64 | a rejected word is a ValueError; an accepted word ends in a digit, holds only digits and underscores after its first character, and a negative result had a leading minus |
| Text.IntToString | tests/nanpy_slave.py:73 | `str(n)` is non-empty, starts with a minus exactly for a negative `n` and otherwise with a digit, and is digits after its first character |
| Text.IntToStringRoundTrip | tests/nanpy_slave.py:64 | `int(str(n)) == n` for every integer |
| Text.ParseIntRejectsLetters | tests/nanpy_slave.py:63-66 | a word holding anything but a leading sign, digits and underscores is a ValueError |
| Utf8.Encode | src/arkady/components.py:90 | the encoding is at least as long as the text |
| Utf8.EncodeAscii | src/arkady/components.py:90 | an ASCII text encodes byte for byte |
| Utf8.Decode | src/arkady/listeners.py:37 | a frame that is not well-formed UTF-8 is a UnicodeDecodeError |
| Utf8.DecodeEncode | src/arkady/components.py:90 | decoding an encoded reply gives back the reply text |
| Utf8.EncodeDecode | src/arkady/listeners.py:96 | every frame that decodes is the encoding of its text |
| Utf8.EncodeInjective | src/arkady/components.py:90 | distinct texts never share an encoded frame |

## Left out

- asyncio scheduling is not modelled. `create_task`, `gather`, `run_in_executor`, the one-worker thread pool and coroutine detection are left out. Each runner iteration and each listener receive is one atomic step, and `Runners` replays any interleaving of such steps.
- The zmq transport is not modelled: sockets, bind and connect, socket close and context term. That includes the SUBSCRIBE prefix filter (src/arkady/listeners.py:88-89). A publication reaching the model is one the filter let through. The context's termination is one state change.
- `uuid.uuid4()` becomes a per-device counter. An id is never issued twice, which is the property the code relies on.
- Hardware calls become a `Board` parameter. `print` calls are dropped.
- Handlers are parameters of type `Call -> HandlerResult`. A handler returning something other than a string or `None` (which would fail at `.encode`) is not modelled.
- Python's `int()` also accepts non-ASCII decimal digits. Only ASCII digits are modelled.
- `Component.requests_runner` raises `NotImplementedError` in the base class. It is not modelled, since only the two subclasses are run.
- src/arkady/devices.py, the demos, the interactive clients and setup.py are not part of this model.
- Listeners.RouterReceive: `_handler` runs as a separate task in the code, so the enqueue happens slightly after the receive. The model performs it within the receive step.
- Application.ApiRegister: the device argument is a new device object. Registering an object that is already reachable under another name is not modelled. The ValueError's message is not modelled.
- Nanpy.NanpyRunnerNeverFails: assumes every table entry has a reply queue. Every router enqueue gives one.
- Listeners.EchoRoundTrip: assumes only that the device's next id is fresh, which `Valid` implies.
- Error paths, as the code has them:
  - A handler exception is not caught per job. It escapes the serial runner (src/arkady/components.py:87) and ends it.
  - An unknown device name raises a KeyError out of the receive loop (src/arkady/listeners.py:40 for the router, src/arkady/listeners.py:98 for the subscriber). No error reply is sent.
  - A malformed envelope also ends the listener (src/arkady/listeners.py:36-39), which ends the application.
- The model follows Python 3.6 to 3.10 as first released, although setup.py also lists Python 3.5. `Text.ParseInt` accepts underscores between digits, which `int()` accepts only from 3.6. `Nanpy.UNKNOWN_FUNCTION` lists the command words in insertion order, which `dict_keys` guarantees only from 3.7 (3.6 in CPython).
- Text.ParseInt: has no limit on the number of digits. CPython 3.11, and the security releases 3.7.14, 3.8.14, 3.9.14 and 3.10.7, reject `int()` of a string with more than 4300 digits with a ValueError. On those interpreters a pin word that long gets the non-integer-pin reply, while `Nanpy.Handle` goes on to call the board.
- Text.SplitOnce: its own contract only bounds the number of parts. What the parts are is stated by `Text.SplitOnceAgreesWithWords`, `Text.SplitOnceRestIsSuffix` and `Text.SplitOnceOfJoin`.
- Utf8.Encode: its own contract only bounds the length. `Utf8.DecodeEncode`, `Utf8.EncodeDecode` and `Utf8.EncodeAscii` state what the bytes are.
- Application.AddDeviceRebindKeepsOldRunner: "no name reaches the old device" is proved only when no two names share a device (`Application.NamesDistinct`). Every registration in the model keeps that true (`Application.AddDeviceKeepsNamesDistinct`, `Application.ApiRegisterIntendedPreservesWellFormed`).
- The nanpy demo (tests/nanpy_slave.py:81) passes the device name and class to `add_device` in swapped order. The model takes the signature of src/arkady/application.py:112.

## Findings

| source | as written | input that shows it | evidently intended | confidence | as-written member | corrected member |
|---|---|---|---|---|---|---|
| src/arkady/application.py:123 | after binding the name, appends to `self.devices`, an attribute `Application` never defines (it defines `_devices` at line 29), so the call raises AttributeError with the name bound and the device not in the device list | `api_register('lamp', d)` on a new application | append to `self._devices`, so the device gets a runner when `run` starts | high, not executed | Application.ApiRegisterCounterexample | Application.ApiRegisterIntendedPreservesWellFormed |

=== FILE: application.dfy ===
/** The application: a registry from device names to device objects, the
    list of devices whose runners it starts, the listeners it starts, and
    the transport context it terminates when it stops. Device objects live
    in `store` and are referred to by index, so that one object can sit
    under a name and in the device list at the same time. */
module Application {
  import opened Wrappers
  import opened Components
  import opened Listeners

  datatype Context = Open | Terminated

  datatype App = App(
    keyMap: map<string, DeviceRef>,
    devices: seq<DeviceRef>,
    listeners: seq<Listener>,
    store: seq<Device>,
    context: Context)

  /** Every name and every device-list entry refers to an object of the
      store, and every object keeps the correlation invariant and has no
      orphan entry. */
  predicate WellFormed(app: App) {
    && RefsIn(app.keyMap, app.store)
    && (forall j :: 0 <= j < |app.devices| ==> app.devices[j] < |app.store|)
    && (forall i :: 0 <= i < |app.store| ==> Valid(app.store[i]) && Tight(app.store[i]))
  }

  /** Every device reachable by name has its runner started: its reference
      is in the device list. */
  predicate Served(app: App) {
    forall n :: n in app.keyMap ==> app.keyMap[n] in app.devices
  }

  /** No two names share a device object. Every registration in the model
      binds its name to an object it has just built, so this always holds;
      it is what makes a rebound device unreachable. */
  predicate NamesDistinct(app: App) {
    forall n, m :: n in app.keyMap && m in app.keyMap && n != m ==> app.keyMap[n] != app.keyMap[m]
  }

  /** `Application.__init__` with the base `config`, which does nothing. */
  function NewApp(): (app: App)
    ensures app.keyMap == map[] && app.devices == [] && app.listeners == []
    ensures app.context == Open
    ensures WellFormed(app) && Served(app) && NamesDistinct(app)
  {
    App(map[], [], [], [], Open)
  }

  /** `add_router`: one more router listener, nothing else changes. */
  function AddRouter(app: App, bindTo: Option<string>): (r: App)
    ensures r.listeners == app.listeners + [Router(bindTo)]
    ensures r.keyMap == app.keyMap && r.devices == app.devices && r.store == app.store
    ensures r.context == app.context
  {
    app.(listeners := app.listeners + [Router(bindTo)])
  }

  /** `add_sub`: one more subscriber listener, nothing else changes. */
  function AddSub(app: App, connectTo: Option<string>, topics: Option<seq<string>>): (r: App)
    ensures r.listeners == app.listeners + [Subscriber(connectTo, topics)]
    ensures r.keyMap == app.keyMap && r.devices == app.devices && r.store == app.store
    ensures r.context == app.context
  {
    app.(listeners := app.listeners + [Subscriber(connectTo, topics)])
  }

  /** `add_device`: build a component with the application's loop (so the
      construction cannot fail for want of one), start serving it, and bind
      the name to it, replacing whatever the name was bound to. */
  function AddDevice(app: App, discipline: Discipline, name: string): (r: App)
    ensures NewComponent(discipline, Some(EventLoop)).Ok?
    ensures |r.store| == |app.store| + 1 && r.store[..|app.store|] == app.store
    ensures r.store[|app.store|] == NewComponent(discipline, Some(EventLoop)).value
    ensures r.devices == app.devices + [|app.store|]
    ensures name in r.keyMap && r.keyMap[name] == |app.store|
    ensures forall n :: n != name ==> (n in r.keyMap <==> n in app.keyMap)
    ensures forall n :: n != name && n in app.keyMap ==> r.keyMap[n] == app.keyMap[n]
    ensures r.listeners == app.listeners && r.context == app.context
  {
    var device := NewComponent(discipline, Some(EventLoop)).value;
    var ref := |app.store|;
    app.(store := app.store + [device], devices := app.devices + [ref],
         keyMap := app.keyMap[name := ref])
  }

  /** The state after a call that may have raised part-way, and the
      exception it raised, if any. */
  datatype Outcome = Outcome(app: App, error: Option<PyError>)

  /** `api_register` as written: a name already bound is refused with a
      ValueError and nothing changes; otherwise the name is bound to the
      device, and then the append to the device list names an attribute the
      application does not have, so the call raises an AttributeError
      after the binding has taken effect and without serving the device. */
  function ApiRegister(app: App, name: string, device: Device): (r: Outcome)
    ensures name in app.keyMap ==> r == Outcome(app, Some(ValueError))
    ensures name !in app.keyMap ==>
      && r.error == Some(AttributeError)
      && r.app.store == app.store + [device]
      && r.app.keyMap == app.keyMap[name := |app.store|]
      && r.app.devices == app.devices
      && r.app.listeners == app.listeners && r.app.context == app.context
  {
    if name in app.keyMap then Outcome(app, Some(ValueError))
    else
      var bound := app.(store := app.store + [device], keyMap := app.keyMap[name := |app.store|]);
      Outcome(bound, Some(AttributeError))
  }

  /** `api_register` as evidently intended: the device is bound and appended
      to the device list the application starts runners for. */
  function ApiRegisterIntended(app: App, name: string, device: Device): (r: Outcome)
    ensures name in app.keyMap ==> r == Outcome(app, Some(ValueError))
    ensures name !in app.keyMap ==>
      && r.error.None?
      && r.app.store == app.store + [device]
      && r.app.keyMap == app.keyMap[name := |app.store|]
      && r.app.devices == app.devices + [|app.store|]
      && r.app.listeners == app.listeners && r.app.context == app.context
  {
    if name in app.keyMap then Outcome(app, Some(ValueError))
    else
      var ref := |app.store|;
      Outcome(app.(store := app.store + [device], keyMap := app.keyMap[name := ref],
                   devices := app.devices + [ref]), None)
  }

  /** A coroutine gathered by `run`: a listener, or the runner of a device. */
  datatype Task = ListenerTask(listener: Listener) | RunnerTask(device: DeviceRef)

  function RunnerTasks(refs: seq<DeviceRef>): (ts: seq<Task>)
    ensures |ts| == |refs|
    ensures forall j :: 0 <= j < |refs| ==> ts[j] == RunnerTask(refs[j])
  {
    if refs == [] then [] else [RunnerTask(refs[0])] + RunnerTasks(refs[1..])
  }

  function ListenerTasks(ls: seq<Listener>): (ts: seq<Task>)
    ensures |ts| == |ls|
    ensures forall j :: 0 <= j < |ls| ==> ts[j] == ListenerTask(ls[j])
  {
    if ls == [] then [] else [ListenerTask(ls[0])] + ListenerTasks(ls[1..])
  }

  /** What `run` gathered, and the application once `run` has returned or
      raised out of the gathered tasks. */
  datatype Launch = Launch(tasks: seq<Task>, app: App)

  /** `Application.run`: refuse to start without a device name (checked
      first) and without a listener; otherwise gather every listener in the
      order added, then one runner per device-list entry in order, and
      terminate the context however the gathered tasks end. A refusal
      happens before the context is touched. */
  function Run(app: App): (r: Result<Launch>)
    ensures app.keyMap == map[] ==> r == Err(ConfigError("Application device_key_map is empty"))
    ensures app.keyMap != map[] && app.listeners == [] ==>
      r == Err(ConfigError("Application has no listeners"))
    ensures r.Ok? <==> app.keyMap != map[] && app.listeners != []
    ensures r.Ok? ==>
      var ts := r.value.tasks;
      && |ts| == |app.listeners| + |app.devices|
      && (forall j :: 0 <= j < |app.listeners| ==> ts[j] == ListenerTask(app.listeners[j]))
      && (forall j :: 0 <= j < |app.devices| ==> ts[|app.listeners| + j] == RunnerTask(app.devices[j]))
    ensures r.Ok? ==> r.value.app == app.(context := Terminated)
  {
    if app.keyMap == map[] then Err(ConfigError("Application device_key_map is empty"))
    else if app.listeners == [] then Err(ConfigError("Application has no listeners"))
    else Ok(Launch(ListenerTasks(app.listeners) + RunnerTasks(app.devices), app.(context := Terminated)))
  }

  // ---- properties -----------------------------------------------------------

  /** Every registration operation keeps the application well formed. */
  lemma AddDevicePreservesWellFormed(app: App, discipline: Discipline, name: string)
    requires WellFormed(app)
    ensures WellFormed(AddDevice(app, discipline, name))
  {
    var r := AddDevice(app, discipline, name);
    assert forall j :: 0 <= j < |app.devices| ==> r.devices[j] == app.devices[j];
    forall i | 0 <= i < |r.store|
      ensures Valid(r.store[i]) && Tight(r.store[i])
    {
      if i < |app.store| {
        assert r.store[i] == app.store[i];
      }
    }
  }

  /** Adding a device keeps every name served: the new name by the new
      device's runner, every other name as before. */
  lemma AddDeviceKeepsServed(app: App, discipline: Discipline, name: string)
    requires Served(app)
    ensures Served(AddDevice(app, discipline, name))
  {
    var r := AddDevice(app, discipline, name);
    forall n | n in r.keyMap
      ensures r.keyMap[n] in r.devices
    {
      if n != name {
        var j :| 0 <= j < |app.devices| && app.devices[j] == app.keyMap[n];
        assert r.devices[j] == app.devices[j];
      } else {
        assert r.devices[|app.devices|] == |app.store|;
      }
    }
  }

  /** Adding a device keeps names apart: the new name gets the new object,
      which no other name can refer to. */
  lemma AddDeviceKeepsNamesDistinct(app: App, discipline: Discipline, name: string)
    requires WellFormed(app) && NamesDistinct(app)
    ensures NamesDistinct(AddDevice(app, discipline, name))
  {
    var r := AddDevice(app, discipline, name);
    forall n, m | n in r.keyMap && m in r.keyMap && n != m
      ensures r.keyMap[n] != r.keyMap[m]
    {
      if n != name && m != name {
        assert r.keyMap[n] == app.keyMap[n] && r.keyMap[m] == app.keyMap[m];
      } else if n == name {
        assert r.keyMap[m] == app.keyMap[m] < |app.store|;
      } else {
        assert r.keyMap[n] == app.keyMap[n] < |app.store|;
      }
    }
  }

  /** Rebinding a name leaves the device it was bound to in the device list:
      its runner is still started, yet (names being distinct) no name, and
      so no listener, reaches it any more. */
  lemma AddDeviceRebindKeepsOldRunner(app: App, discipline: Discipline, name: string)
    requires WellFormed(app) && name in app.keyMap && app.keyMap[name] in app.devices
    ensures var r := AddDevice(app, discipline, name);
      && app.keyMap[name] in r.devices
      && r.keyMap[name] != app.keyMap[name]
      && (NamesDistinct(app) ==> forall n :: n in r.keyMap ==> r.keyMap[n] != app.keyMap[name])
  {
    var r := AddDevice(app, discipline, name);
    var j :| 0 <= j < |app.devices| && app.devices[j] == app.keyMap[name];
    assert r.devices[j] == app.devices[j];
    if NamesDistinct(app) {
      forall n | n in r.keyMap
        ensures r.keyMap[n] != app.keyMap[name]
      {
        if n != name {
          assert r.keyMap[n] == app.keyMap[n];
        }
      }
    }
  }

  lemma ApiRegisterIntendedPreservesWellFormed(app: App, name: string, device: Device)
    requires WellFormed(app) && Valid(device) && Tight(device)
    ensures WellFormed(ApiRegisterIntended(app, name, device).app)
    ensures Served(app) ==> Served(ApiRegisterIntended(app, name, device).app)
    ensures NamesDistinct(app) ==> NamesDistinct(ApiRegisterIntended(app, name, device).app)
  {
    var r := ApiRegisterIntended(app, name, device).app;
    if name !in app.keyMap {
      assert forall j :: 0 <= j < |app.devices| ==> r.devices[j] == app.devices[j];
      assert forall i :: 0 <= i < |app.store| ==> r.store[i] == app.store[i];
      if Served(app) {
        forall n | n in r.keyMap
          ensures r.keyMap[n] in r.devices
        {
          if n != name {
            var j :| 0 <= j < |app.devices| && app.devices[j] == app.keyMap[n];
            assert r.devices[j] == app.devices[j];
          } else {
            assert r.devices[|app.devices|] == |app.store|;
          }
        }
      }
    }
  }

  /** The defect of `api_register` as written: registering a fresh name
      raises, yet leaves the name bound to a device that no runner serves,
      so every request routed to it is queued and never answered. */
  lemma ApiRegisterLeavesDeviceUnserved(app: App, name: string, device: Device)
    requires WellFormed(app) && name !in app.keyMap
    ensures var r := ApiRegister(app, name, device);
      && r.error == Some(AttributeError)
      && name in r.app.keyMap
      && !Served(r.app)
  {
    var r := ApiRegister(app, name, device);
    assert r.app.keyMap[name] == |app.store|;
    assert |app.store| !in app.devices;
  }

  /** Concretely: on a new application, `api_register('lamp', d)` raises an
      AttributeError and leaves `lamp` bound but unserved, while the
      intended version serves it. */
  lemma ApiRegisterCounterexample()
    ensures var d := NewComponent(Serial, Some(EventLoop)).value;
      && ApiRegister(NewApp(), "lamp", d).error == Some(AttributeError)
      && !Served(ApiRegister(NewApp(), "lamp", d).app)
      && ApiRegisterIntended(NewApp(), "lamp", d).error.None?
      && Served(ApiRegisterIntended(NewApp(), "lamp", d).app)
  {
    var d := NewComponent(Serial, Some(EventLoop)).value;
    ApiRegisterLeavesDeviceUnserved(NewApp(), "lamp", d);
    ApiRegisterIntendedPreservesWellFormed(NewApp(), "lamp", d);
  }

  /** When `run` starts, every device a listener can reach by name has its
      runner among the gathered tasks, and so does every device-list entry. */
  lemma RunServesEveryName(app: App)
    requires Served(app) && Run(app).Ok?
    ensures forall n :: n in app.keyMap ==> RunnerTask(app.keyMap[n]) in Run(app).value.tasks
  {
    var ts := Run(app).value.tasks;
    forall n | n in app.keyMap
      ensures RunnerTask(app.keyMap[n]) in ts
    {
      var j :| 0 <= j < |app.devices| && app.devices[j] == app.keyMap[n];
      assert ts[|app.listeners| + j] == RunnerTask(app.devices[j]);
    }
  }

  /** A new application with one device added and then one router passes
      `run`'s checks, and gathers the router and then that device's
      runner. */
  lemma RunAfterSetup(discipline: Discipline, name: string, bindTo: Option<string>)
    ensures var app := AddRouter(AddDevice(NewApp(), discipline, name), bindTo);
      && Run(app).Ok?
      && Run(app).value.tasks == [ListenerTask(Router(bindTo)), RunnerTask(0)]
  {
    var app := AddRouter(AddDevice(NewApp(), discipline, name), bindTo);
    assert name in app.keyMap;
    var ts := Run(app).value.tasks;
    assert |ts| == 2;
  }

  /** A router receive inside the application keeps it well formed: the
      enqueue adds an entry only together with the job that carries it. */
  lemma RouterReceivePreservesWellFormed(app: App, frames: seq<Frame>, replyQueue: QueueRef)
    requires WellFormed(app)
    ensures var r := RouterReceive(app.keyMap, app.store, frames, replyQueue);
      r.Ok? ==> WellFormed(app.(store := r.value))
  {
    var r := RouterReceive(app.keyMap, app.store, frames, replyQueue);
    if r.Ok? {
      var req := ParseRequest(frames).value;
      var ref := app.keyMap[req.name];
      EnqueuePreservesValid(app.store[ref], req.msg, Some(frames[..2]), Some(replyQueue), None);
      forall i | 0 <= i < |r.value|
        ensures Valid(r.value[i]) && Tight(r.value[i])
      {
      }
    }
  }

  /** The same for a subscriber receive. */
  lemma SubscriberReceivePreservesWellFormed(app: App, frames: seq<Frame>)
    requires WellFormed(app)
    ensures var r := SubscriberReceive(app.keyMap, app.store, frames);
      r.Ok? ==> WellFormed(app.(store := r.value))
  {
    var r := SubscriberReceive(app.keyMap, app.store, frames);
    if r.Ok? {
      var pub := ParsePublication(frames).value;
      var ref := app.keyMap[pub.name];
      EnqueuePreservesValid(app.store[ref], pub.msg, None, None, Some(pub.topic));
      forall i | 0 <= i < |r.value|
        ensures Valid(r.value[i]) && Tight(r.value[i])
      {
      }
    }
  }
}

=== FILE: components.dfy ===
/** The per-device dispatch state of a component: a FIFO of bound handler
    calls and a correlation table that remembers, for every call whose reply
    is awaited, the routing frames to send it back with and the listener
    queue to push it onto. A serial component runs one queued call to
    completion per runner iteration; an asynchronous component turns each
    queued call into a task and completes tasks in any order. */
module Components {
  import opened Wrappers
  import Utf8

  /** One frame of a multipart transport message. */
  type Frame = Utf8.Bytes

  type Message = seq<Frame>

  /** Correlation ids. Fresh ids come from a per-device counter, which stands
      for `uuid.uuid4()`: an id is never handed out twice. */
  type Id = nat

  /** The identity of a listener's reply queue. */
  type QueueRef = nat

  /** The contents of every reply queue, keyed by its identity; a queue that
      is not in the map is empty. */
  type Queues = map<QueueRef, seq<Message>>

  /** The event loop a component is constructed with. */
  datatype Loop = EventLoop

  datatype Discipline = Serial | Async

  /** A handler call bound with `functools.partial`: the message, and the
      topic only when one was supplied. */
  datatype Call = Call(msg: string, topic: Option<string>)

  /** A queued job: the bound call and, if a reply is awaited, its id. */
  datatype Job = Job(call: Call, id: Option<Id>)

  /** A correlation entry: the routing frames and the queue for the reply. */
  datatype Meta = Meta(headers: Message, returnQueue: Option<QueueRef>)

  /** A component's state. `running` holds the jobs an asynchronous component
      has turned into tasks that have not finished yet, oldest first. */
  datatype Device = Device(
    discipline: Discipline,
    jobs: seq<Job>,
    meta: map<Id, Meta>,
    nextId: Id,
    running: seq<Job>)

  /** What one handler invocation does: return a string or None, or raise. */
  datatype HandlerResult = Returned(value: Option<string>) | Raised

  type Handler = Call -> HandlerResult

  /** The reply text sent for a handler that returned nothing. */
  const ACK: string := "ACK"

  function Pending(qs: Queues, q: QueueRef): seq<Message> {
    if q in qs then qs[q] else []
  }

  /** `await queue.put(m)`: append to one queue, leaving the others alone. */
  function Push(qs: Queues, q: QueueRef, m: Message): (r: Queues)
    ensures Pending(r, q) == Pending(qs, q) + [m]
    ensures forall p :: p != q ==> Pending(r, p) == Pending(qs, p)
  {
    qs[q := Pending(qs, q) + [m]]
  }

  /** The reply text: the handler's string, or ACK when it returned None. */
  function ReplyText(v: Option<string>): (t: string)
    ensures v.None? ==> t == ACK
    ensures v.Some? ==> t == v.value
  {
    match v
    case None => ACK
    case Some(s) => s
  }

  /** `headers + [reply.encode('utf-8')]`. */
  function Reply(headers: Message, v: Option<string>): (m: Message)
    ensures |m| == |headers| + 1 && m[..|headers|] == headers
    ensures Utf8.Decode(m[|headers|]) == Ok(ReplyText(v))
  {
    Utf8.DecodeEncode(ReplyText(v));
    headers + [Utf8.Encode(ReplyText(v))]
  }

  // ---- invariant ---------------------------------------------------------

  /** The jobs taken from the queue but not finished, then the queued ones. */
  function Outstanding(d: Device): seq<Job> {
    d.running + d.jobs
  }

  /** Every id a job carries names an entry of the table. */
  predicate IdsIn(js: seq<Job>, meta: map<Id, Meta>) {
    forall j :: 0 <= j < |js| ==> js[j].id.Some? ==> js[j].id.value in meta
  }

  /** No id is carried by two jobs. */
  predicate IdsDistinct(js: seq<Job>) {
    forall a, b :: 0 <= a < b < |js| ==> js[a].id.Some? ==> js[a].id != js[b].id
  }

  /** Whether some job carries id `k`. */
  predicate Carries(js: seq<Job>, k: Id) {
    exists j :: 0 <= j < |js| && js[j].id == Some(k)
  }

  /** The correlation invariant: every outstanding job's id has its entry,
      no id is outstanding twice, every entry's id was issued by the
      counter, and a serial component has no task of its own in flight. */
  predicate Valid(d: Device) {
    && IdsIn(Outstanding(d), d.meta)
    && IdsDistinct(Outstanding(d))
    && (forall k :: k in d.meta ==> k < d.nextId)
    && (d.discipline == Serial ==> d.running == [])
  }

  /** No entry outlives its job: every entry belongs to an outstanding job. */
  predicate Tight(d: Device) {
    forall k :: k in d.meta ==> Carries(Outstanding(d), k)
  }

  // ---- construction and enqueue -------------------------------------------

  /** `Component.__init__`: refuses to build without an explicit loop, and
      otherwise starts with no job and no entry. */
  function NewComponent(discipline: Discipline, loop: Option<Loop>): (r: Result<Device>)
    ensures loop.None? <==> r.Err?
    ensures r.Err? ==> r.error == Exception("loop was not explicitly passed!")
    ensures r.Ok? ==> r.value.jobs == [] && r.value.meta == map[] && r.value.running == []
    ensures r.Ok? ==> r.value.discipline == discipline && Valid(r.value) && Tight(r.value)
  {
    if loop.None? then Err(Exception("loop was not explicitly passed!"))
    else Ok(Device(discipline, [], map[], 0, []))
  }

  /** `Component._handler`: when reply headers are given, issue a fresh id
      and record the headers and reply queue under it; then queue the call,
      bound with the topic only when a topic is given. */
  function Enqueue(d: Device, msg: string, headers: Option<Message>,
                   returnQueue: Option<QueueRef>, topic: Option<string>): (r: Device)
    ensures |r.jobs| == |d.jobs| + 1 && r.jobs[..|d.jobs|] == d.jobs
    ensures r.jobs[|d.jobs|].call == Call(msg, topic)
    ensures headers.None? ==> r.jobs[|d.jobs|].id.None? && r.meta == d.meta
    ensures headers.Some? ==>
      && r.jobs[|d.jobs|].id.Some?
      && r.meta == d.meta[r.jobs[|d.jobs|].id.value := Meta(headers.value, returnQueue)]
    ensures Valid(d) && headers.Some? ==> r.jobs[|d.jobs|].id.value !in d.meta
    ensures headers.Some? ==> r.jobs[|d.jobs|].id == Some(d.nextId) && r.nextId == d.nextId + 1
    ensures headers.None? ==> r.nextId == d.nextId
    ensures r.running == d.running && r.discipline == d.discipline
  {
    var id := if headers.Some? then Some(d.nextId) else None;
    var meta := if headers.Some? then d.meta[d.nextId := Meta(headers.value, returnQueue)] else d.meta;
    var next := if headers.Some? then d.nextId + 1 else d.nextId;
    d.(jobs := d.jobs + [Job(Call(msg, topic), id)], meta := meta, nextId := next)
  }

  // ---- serial runner --------------------------------------------------------

  /** The outcome of one runner iteration: nothing to take (the runner waits
      on the empty queue), a new state and the call that was run, or an
      exception that escapes the runner. */
  datatype Step = Idle | Stepped(device: Device, queues: Queues, ran: Call) | Failed(error: PyError)

  /** One iteration of `SerialComponent.requests_runner`, which runs the
      handler to completion before taking the next job. For a job with an
      id, the entry is popped (KeyError if absent) before the handler runs;
      a handler that raises ends the runner; None becomes ACK; and the reply
      is pushed onto the entry's queue (AttributeError if it has none). A
      job without an id has its result discarded. */
  function SerialStep(d: Device, qs: Queues, handler: Handler): (r: Step)
    ensures r.Idle? <==> d.jobs == []
    ensures d.jobs != [] ==>
      var job := d.jobs[0];
      var found := job.id.Some? ==> job.id.value in d.meta;
      && (!found ==> r == Failed(KeyError))
      && (found && handler(job.call).Raised? ==> r == Failed(HandlerRaised))
      && (found && handler(job.call).Returned? && job.id.Some? && d.meta[job.id.value].returnQueue.None? ==>
            r == Failed(AttributeError))
      && (found && handler(job.call).Returned? && (job.id.Some? ==> d.meta[job.id.value].returnQueue.Some?) ==>
            r.Stepped?)
    ensures r.Stepped? ==>
      && handler(d.jobs[0].call).Returned?
      && r.ran == d.jobs[0].call && r.device.jobs == d.jobs[1..]
      && r.device.running == d.running && r.device.discipline == d.discipline
      && r.device.nextId == d.nextId
    ensures r.Stepped? && d.jobs[0].id.None? ==> r.device.meta == d.meta && r.queues == qs
    ensures r.Stepped? && d.jobs[0].id.Some? ==>
      var k := d.jobs[0].id.value;
      && k in d.meta && d.meta[k].returnQueue.Some?
      && r.device.meta == d.meta - {k}
      && r.queues == Push(qs, d.meta[k].returnQueue.value, Reply(d.meta[k].headers, handler(d.jobs[0].call).value))
  {
    if d.jobs == [] then Idle
    else
      var job := d.jobs[0];
      var rest := d.(jobs := d.jobs[1..]);
      match job.id
      case None =>
        (match handler(job.call)
         case Raised => Failed(HandlerRaised)
         case Returned(_) => Stepped(rest, qs, job.call))
      case Some(k) =>
        if k !in d.meta then Failed(KeyError)
        else
          var entry := d.meta[k];
          match handler(job.call)
          case Raised => Failed(HandlerRaised)
          case Returned(v) =>
            match entry.returnQueue
            case None => Failed(AttributeError)
            case Some(q) => Stepped(rest.(meta := d.meta - {k}), Push(qs, q, Reply(entry.headers, v)), job.call)
  }

  // ---- asynchronous runner --------------------------------------------------

  /** One iteration of `AsyncComponent.requests_runner`: take the head job
      and start it as a task, without waiting for it. */
  function AsyncStart(d: Device): (r: Option<Device>)
    ensures r.None? <==> d.jobs == []
    ensures r.Some? ==> r.value.running == d.running + [d.jobs[0]] && r.value.jobs == d.jobs[1..]
    ensures r.Some? ==> Outstanding(r.value) == Outstanding(d)
    ensures r.Some? ==> r.value.meta == d.meta && r.value.nextId == d.nextId && r.value.discipline == d.discipline
  {
    if d.jobs == [] then None
    else Some(d.(jobs := d.jobs[1..], running := d.running + [d.jobs[0]]))
  }

  /** A task's end: the state after it and the exception that ended it, if
      any. A task's exception is not seen by the runner. */
  datatype Completion = Completion(device: Device, queues: Queues, error: Option<PyError>)

  function RemoveAt(js: seq<Job>, i: nat): (r: seq<Job>)
    requires i < |js|
    ensures |r| == |js| - 1
    ensures forall j :: 0 <= j < i ==> r[j] == js[j]
    ensures forall j :: i <= j < |r| ==> r[j] == js[j + 1]
  {
    js[..i] + js[i + 1..]
  }

  /** `AsyncComponent.enqueue` run to its end for the in-flight task `i`
      (tasks may finish in any order). The handler runs first; without an
      id the result is dropped. With an id: a raising handler ends the task
      and leaves the entry in place; otherwise None becomes ACK, the entry is
      popped (KeyError if absent) and the reply pushed (AttributeError if the
      entry has no queue). */
  function AsyncComplete(d: Device, qs: Queues, i: nat, handler: Handler): (r: Completion)
    requires i < |d.running|
    ensures r.device.running == RemoveAt(d.running, i)
    ensures r.device.jobs == d.jobs && r.device.nextId == d.nextId && r.device.discipline == d.discipline
    ensures handler(d.running[i].call).Raised? <==> r.error == Some(HandlerRaised)
    ensures handler(d.running[i].call).Returned? && d.running[i].id.Some? ==>
      var k := d.running[i].id.value;
      && (k !in d.meta ==> r.error == Some(KeyError) && r.device.meta == d.meta)
      && (k in d.meta ==> r.device.meta == d.meta - {k})
      && (k in d.meta && d.meta[k].returnQueue.None? ==> r.error == Some(AttributeError))
      && (k in d.meta && d.meta[k].returnQueue.Some? ==>
            && r.error.None?
            && r.queues == Push(qs, d.meta[k].returnQueue.value, Reply(d.meta[k].headers, handler(d.running[i].call).value)))
    ensures handler(d.running[i].call).Returned? && d.running[i].id.None? ==> r.error.None?
    ensures d.running[i].id.None? || r.error.Some? ==> r.queues == qs
    ensures d.running[i].id.None? || handler(d.running[i].call).Raised? ==> r.device.meta == d.meta
  {
    var job := d.running[i];
    var rest := d.(running := RemoveAt(d.running, i));
    match handler(job.call)
    case Raised => Completion(rest, qs, Some(HandlerRaised))
    case Returned(v) =>
      match job.id
      case None => Completion(rest, qs, None)
      case Some(k) =>
        if k !in d.meta then Completion(rest, qs, Some(KeyError))
        else
          var entry := d.meta[k];
          var popped := rest.(meta := d.meta - {k});
          match entry.returnQueue
          case None => Completion(popped, qs, Some(AttributeError))
          case Some(q) => Completion(popped, Push(qs, q, Reply(entry.headers, v)), None)
  }

  /** `DummySerialDevice.handler`: echoes the message back. */
  function EchoHandler(c: Call): (r: HandlerResult)
    ensures r.Returned? && ReplyText(r.value) == c.msg
  {
    Returned(Some(c.msg))
  }

  // ---- properties -----------------------------------------------------------

  /** Enqueue keeps the correlation invariant, and adds no entry without a
      job that carries it. */
  lemma EnqueuePreservesValid(d: Device, msg: string, headers: Option<Message>,
                              returnQueue: Option<QueueRef>, topic: Option<string>)
    requires Valid(d)
    ensures Valid(Enqueue(d, msg, headers, returnQueue, topic))
    ensures Tight(d) ==> Tight(Enqueue(d, msg, headers, returnQueue, topic))
  {
    var r := Enqueue(d, msg, headers, returnQueue, topic);
    var o, o' := Outstanding(d), Outstanding(r);
    assert o' == o + [r.jobs[|d.jobs|]];
    assert forall j :: 0 <= j < |o| ==> o'[j] == o[j];
    if headers.Some? {
      assert forall j :: 0 <= j < |o| && o[j].id.Some? ==> o[j].id.value < d.nextId;
    }
    if Tight(d) {
      forall k | k in r.meta
        ensures Carries(o', k)
      {
        if k in d.meta {
          var j :| 0 <= j < |o| && o[j].id == Some(k);
          assert o'[j] == o[j];
        } else {
          assert o'[|o|].id == Some(k);
        }
      }
    }
  }

  /** Under the invariant the serial runner never pops a missing entry. */
  lemma SerialStepNeverKeyError(d: Device, qs: Queues, handler: Handler)
    requires Valid(d)
    ensures SerialStep(d, qs, handler) != Failed(KeyError)
  {
    if d.jobs != [] {
      assert Outstanding(d)[|d.running|] == d.jobs[0];
    }
  }

  /** One serial iteration keeps the invariant, and right after it the
      consumed id has no entry and no outstanding job carries it
      (`Runners.SerialTakeConsumesForever` carries this through every later
      event). */
  lemma SerialStepPreservesValid(d: Device, qs: Queues, handler: Handler)
    requires Valid(d) && d.discipline == Serial && SerialStep(d, qs, handler).Stepped?
    ensures Valid(SerialStep(d, qs, handler).device)
    ensures Tight(d) ==> Tight(SerialStep(d, qs, handler).device)
    ensures d.jobs[0].id.Some? ==>
      var k := d.jobs[0].id.value;
      var d' := SerialStep(d, qs, handler).device;
      k !in d'.meta && !Carries(Outstanding(d'), k)
  {
    var d' := SerialStep(d, qs, handler).device;
    assert Outstanding(d) == d.jobs;
    assert Outstanding(d') == d.jobs[1..];
    DropHeadKeepsIds(d.jobs, d.meta, d'.meta);
  }

  /** Taking the head job and its entry (if it has one) keeps the ids of the
      remaining jobs in the table and distinct, and none of them carries the
      head's id. */
  lemma DropHeadKeepsIds(js: seq<Job>, meta: map<Id, Meta>, meta': map<Id, Meta>)
    requires js != [] && IdsIn(js, meta) && IdsDistinct(js)
    requires meta' == if js[0].id.Some? then meta - {js[0].id.value} else meta
    ensures IdsIn(js[1..], meta') && IdsDistinct(js[1..])
    ensures js[0].id.Some? ==> !Carries(js[1..], js[0].id.value)
    ensures (forall k :: k in meta ==> Carries(js, k)) ==> forall k :: k in meta' ==> Carries(js[1..], k)
  {
    var t := js[1..];
    assert forall j :: 0 <= j < |t| ==> t[j] == js[j + 1];
    if forall k :: k in meta ==> Carries(js, k) {
      forall k | k in meta'
        ensures Carries(t, k)
      {
        var j :| 0 <= j < |js| && js[j].id == Some(k);
        assert j != 0;
        assert t[j - 1] == js[j];
      }
    }
  }

  /** Starting a task moves a job without changing what is outstanding. */
  lemma AsyncStartPreservesValid(d: Device)
    requires Valid(d) && d.discipline == Async && d.jobs != []
    ensures Valid(AsyncStart(d).value) && (Tight(d) ==> Tight(AsyncStart(d).value))
  {
  }

  /** Under the invariant a finishing task never pops a missing entry. */
  lemma AsyncCompleteNeverKeyError(d: Device, qs: Queues, i: nat, handler: Handler)
    requires Valid(d) && i < |d.running|
    ensures AsyncComplete(d, qs, i, handler).error != Some(KeyError)
  {
    assert Outstanding(d)[i] == d.running[i];
  }

  /** A finishing task keeps the invariant whatever happens to it, and right
      after it no outstanding job carries its id
      (`Runners.FinishConsumesForever` carries this through every later
      event). */
  lemma AsyncCompletePreservesValid(d: Device, qs: Queues, i: nat, handler: Handler)
    requires Valid(d) && i < |d.running|
    ensures Valid(AsyncComplete(d, qs, i, handler).device)
    ensures d.running[i].id.Some? ==>
      !Carries(Outstanding(AsyncComplete(d, qs, i, handler).device), d.running[i].id.value)
  {
    var d' := AsyncComplete(d, qs, i, handler).device;
    var o, o' := Outstanding(d), Outstanding(d');
    var at := (j: int) => if j < i then j else j + 1;
    assert |o'| == |o| - 1;
    assert forall j :: 0 <= j < |o'| ==> o'[j] == o[at(j)];
    assert o[i] == d.running[i];
    forall j | 0 <= j < |o'| && o'[j].id.Some?
      ensures o'[j].id.value in d'.meta && o'[j].id != o[i].id
    {
      assert at(j) != i && o'[j] == o[at(j)];
      if at(j) < i {
        assert o[at(j)].id != o[i].id;
      }
    }
    forall a, b | 0 <= a < b < |o'| && o'[a].id.Some?
      ensures o'[a].id != o'[b].id
    {
      assert o'[a] == o[at(a)] && o'[b] == o[at(b)] && at(a) < at(b);
    }
  }

  /** The leak of the asynchronous discipline, for the completion itself:
      when the handler of a task that awaits a reply raises, its entry stays
      in the table, nothing is pushed, and no outstanding job carries its id
      any more (`Runners.RaisedTaskLeaksForever` carries this through every
      later event). */
  lemma AsyncRaiseLeavesOrphanEntry(d: Device, qs: Queues, i: nat, handler: Handler)
    requires Valid(d) && i < |d.running|
    requires d.running[i].id.Some? && handler(d.running[i].call).Raised?
    ensures var r := AsyncComplete(d, qs, i, handler);
      var k := d.running[i].id.value;
      && k in r.device.meta
      && r.queues == qs
      && !Carries(Outstanding(r.device), k)
      && !Tight(r.device)
  {
    AsyncCompletePreservesValid(d, qs, i, handler);
    assert Outstanding(d)[i] == d.running[i];
  }

  /** A request enqueued with reply headers on an idle serial device whose
      next id is fresh (as `Valid` guarantees) is answered by the device's
      next step: the handler runs on the message, the entry is consumed, the
      table is back to what it was, and the reply queue gains exactly the
      headers followed by the encoded reply text. */
  lemma FreshRequestReply(d: Device, qs: Queues, handler: Handler, msg: string, headers: Message, q: QueueRef)
    requires d.nextId !in d.meta && d.discipline == Serial && d.jobs == []
    requires handler(Call(msg, None)).Returned?
    ensures var s := SerialStep(Enqueue(d, msg, Some(headers), Some(q), None), qs, handler);
      && s.Stepped? && s.ran == Call(msg, None)
      && s.device.jobs == [] && s.device.meta == d.meta
      && s.queues == Push(qs, q, Reply(headers, handler(Call(msg, None)).value))
  {
    var d1 := Enqueue(d, msg, Some(headers), Some(q), None);
    assert d1.jobs[0].id == Some(d.nextId);
    assert d1.meta - {d.nextId} == d.meta;
  }

  /** The echo device replies with the routing frames it was given followed
      by its message, encoded: decoding that last frame gives the message.
      Only the freshness of the next id is needed, which `Valid` implies. */
  lemma EchoReplies(d: Device, qs: Queues, msg: string, headers: Message, q: QueueRef)
    requires d.nextId !in d.meta && d.discipline == Serial && d.jobs == []
    ensures var d1 := Enqueue(d, msg, Some(headers), Some(q), None);
      var r := SerialStep(d1, qs, EchoHandler);
      && r.Stepped?
      && r.device.jobs == [] && r.device.meta == d.meta
      && Pending(r.queues, q) == Pending(qs, q) + [headers + [Utf8.Encode(msg)]]
  {
    FreshRequestReply(d, qs, EchoHandler, msg, headers, q);
    assert Reply(headers, Some(msg)) == headers + [Utf8.Encode(msg)];
  }
}

=== FILE: listeners.dfy ===
/** The two listeners. A router listener cuts each request into routing
    frames and a body, a subscriber cuts each publication into a topic and a
    body; both split the body into a device name and a message, look the
    name up and enqueue the message on that device. The router also sends
    back, unchanged and in order, whatever its devices push onto its single
    reply queue. */
module Listeners {
  import opened Wrappers
  import opened Components
  import Utf8
  import Text

  const DEFAULT_BIND: string := "tcp://*:5555"
  const DEFAULT_CONNECT: string := "tcp://localhost:5555"
  const DEFAULT_TOPICS: seq<string> := [""]

  /** A listener coroutine as the application holds it before it starts,
      with the arguments it was created with (None where the caller passed
      none). */
  datatype Listener =
    | Router(bindTo: Option<string>)
    | Subscriber(connectTo: Option<string>, topics: Option<seq<string>>)

  /** The address a router binds to. */
  function BindAddress(l: Listener): (a: string)
    requires l.Router?
    ensures l.bindTo.None? ==> a == "tcp://*:5555"
    ensures l.bindTo.Some? ==> a == l.bindTo.value
  {
    if l.bindTo.None? then DEFAULT_BIND else l.bindTo.value
  }

  /** The address a subscriber connects to. */
  function ConnectAddress(l: Listener): (a: string)
    requires l.Subscriber?
    ensures l.connectTo.None? ==> a == "tcp://localhost:5555"
    ensures l.connectTo.Some? ==> a == l.connectTo.value
  {
    if l.connectTo.None? then DEFAULT_CONNECT else l.connectTo.value
  }

  /** The topic prefixes a subscriber subscribes to. */
  function Topics(l: Listener): (ts: seq<string>)
    requires l.Subscriber?
    ensures l.topics.None? ==> ts == [""]
    ensures l.topics.Some? ==> ts == l.topics.value
  {
    if l.topics.None? then DEFAULT_TOPICS else l.topics.value
  }

  /** Which device object a name resolves to: an index into the store of
      every device object the application has built. */
  type DeviceRef = nat

  predicate RefsIn(keyMap: map<string, DeviceRef>, store: seq<Device>) {
    forall n :: n in keyMap ==> keyMap[n] < |store|
  }

  /** `name, msg = body.split(maxsplit=1)`: a ValueError unless the split
      yields exactly two parts. */
  function SplitNameMsg(body: string): (r: Result<(string, string)>)
    ensures r.Ok? <==> |Text.Words(body)| >= 2
    ensures r.Err? ==> r.error == ValueError
    ensures r.Ok? ==> r.value.0 == Text.Words(body)[0] && Text.Words(r.value.1) == Text.Words(body)[1..]
    ensures r.Ok? ==> var msg := r.value.1;
      0 < |msg| <= |body| && msg == body[|body| - |msg|..] && !Text.IsSpace(msg[0])
  {
    Text.SplitOnceAgreesWithWords(body);
    var parts := Text.SplitOnce(body);
    if |parts| == 2 then
      Text.SplitOnceRestIsSuffix(body);
      Ok((parts[0], parts[1]))
    else Err(ValueError)
  }

  datatype Request = Request(headers: Message, name: string, msg: string)

  /** The parsing half of one router receive iteration: frames 0 and 1 are
      the routing headers, frame 2 the body (an IndexError when there are
      fewer than three frames; later frames are ignored); the body is decoded
      and split. */
  function ParseRequest(frames: seq<Frame>): (r: Result<Request>)
    ensures |frames| < 3 ==> r == Err(IndexError)
    ensures r.Ok? ==> r.value.headers == frames[..2]
    ensures r.Ok? <==>
      && |frames| >= 3
      && Utf8.Decode(frames[2]).Ok?
      && |Text.Words(Utf8.Decode(frames[2]).value)| >= 2
    ensures r.Ok? ==> [r.value.name] + Text.Words(r.value.msg) == Text.Words(Utf8.Decode(frames[2]).value)
  {
    if |frames| < 3 then Err(IndexError)
    else
      var body :- Utf8.Decode(frames[2]);
      var (name, msg) :- SplitNameMsg(body);
      Ok(Request(frames[..2], name, msg))
  }

  datatype Publication = Publication(topic: string, name: string, msg: string)

  /** The parsing half of one subscriber receive iteration: frame 0 is the
      topic and frame 1 the body (an IndexError when there are fewer than
      two frames); the topic is decoded, then the body, then the body split. */
  function ParsePublication(frames: seq<Frame>): (r: Result<Publication>)
    ensures |frames| < 2 ==> r == Err(IndexError)
    ensures r.Ok? <==>
      && |frames| >= 2
      && Utf8.Decode(frames[0]).Ok?
      && Utf8.Decode(frames[1]).Ok?
      && |Text.Words(Utf8.Decode(frames[1]).value)| >= 2
    ensures r.Ok? ==> Utf8.Encode(r.value.topic) == frames[0]
    ensures r.Ok? ==> [r.value.name] + Text.Words(r.value.msg) == Text.Words(Utf8.Decode(frames[1]).value)
  {
    if |frames| < 2 then Err(IndexError)
    else
      var topic :- Utf8.Decode(frames[0]);
      var body :- Utf8.Decode(frames[1]);
      var (name, msg) :- SplitNameMsg(body);
      Utf8.EncodeDecode(frames[0]);
      Ok(Publication(topic, name, msg))
  }

  /** `application.device_key_map[name]`: a KeyError for an unknown name. */
  function Lookup(keyMap: map<string, DeviceRef>, name: string): (r: Result<DeviceRef>)
    ensures r.Ok? <==> name in keyMap
    ensures r.Ok? ==> r.value == keyMap[name]
    ensures r.Err? ==> r.error == KeyError
  {
    if name in keyMap then Ok(keyMap[name]) else Err(KeyError)
  }

  /** One iteration of the router's receive loop: parse, look the device up,
      and enqueue the message with the routing headers and the router's
      reply queue. Any failure raises out of the loop before anything is
      enqueued. */
  function RouterReceive(keyMap: map<string, DeviceRef>, store: seq<Device>,
                         frames: seq<Frame>, replyQueue: QueueRef): (r: Result<seq<Device>>)
    requires RefsIn(keyMap, store)
    ensures r.Ok? <==> ParseRequest(frames).Ok? && ParseRequest(frames).value.name in keyMap
    ensures ParseRequest(frames).Err? ==> r == Err(ParseRequest(frames).error)
    ensures ParseRequest(frames).Ok? && ParseRequest(frames).value.name !in keyMap ==> r == Err(KeyError)
    ensures r.Ok? ==>
      var req := ParseRequest(frames).value;
      var ref := keyMap[req.name];
      && |r.value| == |store|
      && r.value[ref] == Enqueue(store[ref], req.msg, Some(frames[..2]), Some(replyQueue), None)
      && (forall i :: 0 <= i < |store| && i != ref ==> r.value[i] == store[i])
  {
    var req :- ParseRequest(frames);
    var ref :- Lookup(keyMap, req.name);
    Ok(store[ref := Enqueue(store[ref], req.msg, Some(req.headers), Some(replyQueue), None)])
  }

  /** One iteration of the subscriber's loop: parse, look the device up, and
      enqueue the message with its topic and no reply headers. */
  function SubscriberReceive(keyMap: map<string, DeviceRef>, store: seq<Device>,
                             frames: seq<Frame>): (r: Result<seq<Device>>)
    requires RefsIn(keyMap, store)
    ensures r.Ok? <==> ParsePublication(frames).Ok? && ParsePublication(frames).value.name in keyMap
    ensures ParsePublication(frames).Err? ==> r == Err(ParsePublication(frames).error)
    ensures ParsePublication(frames).Ok? && ParsePublication(frames).value.name !in keyMap ==> r == Err(KeyError)
    ensures r.Ok? ==>
      var pub := ParsePublication(frames).value;
      var ref := keyMap[pub.name];
      && |r.value| == |store|
      && r.value[ref] == Enqueue(store[ref], pub.msg, None, None, Some(pub.topic))
      && (forall i :: 0 <= i < |store| && i != ref ==> r.value[i] == store[i])
  {
    var pub :- ParsePublication(frames);
    var ref :- Lookup(keyMap, pub.name);
    Ok(store[ref := Enqueue(store[ref], pub.msg, None, None, Some(pub.topic))])
  }

  /** One iteration of the router's transmit loop: take the oldest reply off
      the queue and send it as it is. None when the queue is empty (the loop
      waits). */
  function Transmit(qs: Queues, q: QueueRef): (r: Option<(Message, Queues)>)
    ensures r.None? <==> Pending(qs, q) == []
    ensures r.Some? ==> [r.value.0] + Pending(r.value.1, q) == Pending(qs, q)
    ensures r.Some? ==> forall p :: p != q ==> Pending(r.value.1, p) == Pending(qs, p)
  {
    var pending := Pending(qs, q);
    if pending == [] then None
    else
      assert pending == [pending[0]] + pending[1..];
      Some((pending[0], qs[q := pending[1..]]))
  }

  /** The transmit loop run until the queue is empty: the messages it sends,
      in the order it sends them. */
  function Drain(qs: Queues, q: QueueRef): seq<Message>
    decreases |Pending(qs, q)|
  {
    match Transmit(qs, q)
    case None => []
    case Some((m, qs')) => [m] + Drain(qs', q)
  }

  // ---- properties -----------------------------------------------------------

  /** The router forwards replies unchanged and first in, first out: draining
      the reply queue sends exactly what was queued, in queue order. */
  lemma {:induction false} DrainSendsInOrder(qs: Queues, q: QueueRef)
    ensures Drain(qs, q) == Pending(qs, q)
    decreases |Pending(qs, q)|
  {
    match Transmit(qs, q)
    case None =>
    case Some((m, qs')) =>
      DrainSendsInOrder(qs', q);
  }

  /** A request built from two routing frames and the encoding of a device
      name, one space and a message (starting with a non-space character)
      parses back into exactly those parts, whatever frames follow. */
  lemma ParseRequestOfEnvelope(h0: Frame, h1: Frame, name: string, msg: string, extra: seq<Frame>)
    requires Text.IsWord(name) && |msg| > 0 && !Text.IsSpace(msg[0])
    ensures ParseRequest([h0, h1, Utf8.Encode(name + " " + msg)] + extra) == Ok(Request([h0, h1], name, msg))
  {
    var frames := [h0, h1, Utf8.Encode(name + " " + msg)] + extra;
    Text.SplitOnceOfJoin(name, msg);
    Utf8.DecodeEncode(name + " " + msg);
    assert frames[2] == Utf8.Encode(name + " " + msg);
    assert frames[..2] == [h0, h1];
  }

  /** Frames after the body never change how a request parses. */
  lemma ParseRequestIgnoresTrailingFrames(frames: seq<Frame>, extra: seq<Frame>)
    requires |frames| >= 3
    ensures ParseRequest(frames + extra) == ParseRequest(frames)
  {
    assert (frames + extra)[..2] == frames[..2];
    assert (frames + extra)[2] == frames[2];
  }

  /** The same round trip for a publication: its topic and body frames. */
  lemma ParsePublicationOfEnvelope(topic: string, name: string, msg: string, extra: seq<Frame>)
    requires Text.IsWord(name) && |msg| > 0 && !Text.IsSpace(msg[0])
    ensures ParsePublication([Utf8.Encode(topic), Utf8.Encode(name + " " + msg)] + extra)
         == Ok(Publication(topic, name, msg))
  {
    var frames := [Utf8.Encode(topic), Utf8.Encode(name + " " + msg)] + extra;
    Text.SplitOnceOfJoin(name, msg);
    Utf8.DecodeEncode(topic);
    Utf8.DecodeEncode(name + " " + msg);
    assert frames[0] == Utf8.Encode(topic);
    assert frames[1] == Utf8.Encode(name + " " + msg);
  }

  /** Request and reply correlate: once the router has enqueued a request on
      an idle serial device, the device's next iteration runs that message
      and pushes onto the router's reply queue the request's own routing
      frames followed by the encoded reply text, and its table is back to
      what it was before the request. */
  lemma RequestReplyCorrelation(keyMap: map<string, DeviceRef>, store: seq<Device>,
                                frames: seq<Frame>, replyQueue: QueueRef,
                                qs: Queues, handler: Handler)
    requires RefsIn(keyMap, store)
    ensures RouterReceive(keyMap, store, frames, replyQueue).Ok? ==>
      var req := ParseRequest(frames).value;
      var ref := keyMap[req.name];
      var d := store[ref];
      Valid(d) && d.discipline == Serial && d.jobs == [] && handler(Call(req.msg, None)).Returned? ==>
        var v := handler(Call(req.msg, None)).value;
        var s := SerialStep(RouterReceive(keyMap, store, frames, replyQueue).value[ref], qs, handler);
        && s.Stepped? && s.ran == Call(req.msg, None)
        && s.device.jobs == [] && s.device.meta == d.meta
        && var sent := Pending(s.queues, replyQueue);
        && |sent| == |Pending(qs, replyQueue)| + 1
        && sent[..|sent| - 1] == Pending(qs, replyQueue)
        && var reply := sent[|sent| - 1];
        && |reply| == 3 && reply[..2] == frames[..2]
        && Utf8.Decode(reply[2]) == Ok(ReplyText(v))
  {
    var r := RouterReceive(keyMap, store, frames, replyQueue);
    if r.Ok? {
      var req := ParseRequest(frames).value;
      var ref := keyMap[req.name];
      var d := store[ref];
      if Valid(d) && d.discipline == Serial && d.jobs == [] && handler(Call(req.msg, None)).Returned? {
        assert d.nextId !in d.meta;
        RequestAnswered(d, r.value[ref], qs, handler, req.msg, frames, replyQueue);
      }
    }
  }

  /** The device half of `RequestReplyCorrelation`, for a device `d1` that
      is `d` with the request enqueued. */
  lemma RequestAnswered(d: Device, d1: Device, qs: Queues, handler: Handler,
                        msg: string, frames: seq<Frame>, replyQueue: QueueRef)
    requires |frames| >= 3
    requires d1 == Enqueue(d, msg, Some(frames[..2]), Some(replyQueue), None)
    requires d.nextId !in d.meta && d.discipline == Serial && d.jobs == []
    requires handler(Call(msg, None)).Returned?
    ensures var v := handler(Call(msg, None)).value;
      var s := SerialStep(d1, qs, handler);
      && s.Stepped? && s.ran == Call(msg, None)
      && s.device.jobs == [] && s.device.meta == d.meta
      && var sent := Pending(s.queues, replyQueue);
      && |sent| == |Pending(qs, replyQueue)| + 1
      && sent[..|sent| - 1] == Pending(qs, replyQueue)
      && var reply := sent[|sent| - 1];
      && |reply| == 3 && reply[..2] == frames[..2]
      && Utf8.Decode(reply[2]) == Ok(ReplyText(v))
  {
    FreshRequestReply(d, qs, handler, msg, frames[..2], replyQueue);
    var s := SerialStep(d1, qs, handler);
    LastReply(Pending(qs, replyQueue), Pending(s.queues, replyQueue), frames[..2], handler(Call(msg, None)).value);
  }

  /** A queue that gained one reply to two routing frames: the earlier
      messages come first, and the last one is those frames and the reply. */
  lemma LastReply(before: seq<Message>, sent: seq<Message>, headers: Message, v: Option<string>)
    requires |headers| == 2 && sent == before + [Reply(headers, v)]
    ensures |sent| == |before| + 1 && sent[..|sent| - 1] == before
    ensures var reply := sent[|sent| - 1];
      && |reply| == 3 && reply[..2] == headers
      && Utf8.Decode(reply[2]) == Ok(ReplyText(v))
  {
    assert sent[..|sent| - 1] == before;
  }

  /** The echo device behind a router: a request for an idle echo device is
      answered, on an otherwise empty reply queue, with exactly one message:
      the request's routing frames followed by the encoding of the message
      part of its body. With `ParseRequestOfEnvelope`, a body `name msg`
      comes back as `msg`. Only the freshness of the device's next id is
      needed, which `Valid` implies. */
  lemma EchoRoundTrip(keyMap: map<string, DeviceRef>, store: seq<Device>,
                      frames: seq<Frame>, replyQueue: QueueRef)
    requires RefsIn(keyMap, store)
    ensures RouterReceive(keyMap, store, frames, replyQueue).Ok? ==>
      var req := ParseRequest(frames).value;
      var d := store[keyMap[req.name]];
      d.nextId !in d.meta && d.discipline == Serial && d.jobs == [] ==>
        var d1 := RouterReceive(keyMap, store, frames, replyQueue).value[keyMap[req.name]];
        var s := SerialStep(d1, map[], EchoHandler);
        && s.Stepped?
        && Drain(s.queues, replyQueue) == [frames[..2] + [Utf8.Encode(req.msg)]]
  {
    var r := RouterReceive(keyMap, store, frames, replyQueue);
    if r.Ok? {
      var req := ParseRequest(frames).value;
      var ref := keyMap[req.name];
      var d := store[ref];
      if d.nextId !in d.meta && d.discipline == Serial && d.jobs == [] {
        var d1 := r.value[ref];
        var s := SerialStep(d1, map[], EchoHandler);
        EchoReplies(d, map[], req.msg, frames[..2], replyQueue);
        assert Pending(s.queues, replyQueue) == [frames[..2] + [Utf8.Encode(req.msg)]];
        DrainSendsInOrder(s.queues, replyQueue);
      }
    }
  }

  /** A subscriber never causes a reply: what it enqueues carries no id,
      adds no entry to any table, and when a serial device runs it no reply
      queue changes. */
  lemma SubscriberNeverReplies(keyMap: map<string, DeviceRef>, store: seq<Device>,
                               frames: seq<Frame>, qs: Queues, handler: Handler)
    requires RefsIn(keyMap, store)
    ensures var r := SubscriberReceive(keyMap, store, frames);
      r.Ok? ==>
        && (forall i :: 0 <= i < |store| ==> r.value[i].meta == store[i].meta)
        && var pub := ParsePublication(frames).value;
        && var ref := keyMap[pub.name];
        && (store[ref].discipline == Serial && store[ref].jobs == [] ==>
              var s := SerialStep(r.value[ref], qs, handler);
              && (s.Stepped? || s == Failed(HandlerRaised))
              && (s.Stepped? ==> s.queues == qs && s.ran == Call(pub.msg, Some(pub.topic))))
  {
  }
}

=== FILE: nanpy.dfy ===
/** The generic NanPy device: a serial component whose handler reads a
    command word, a pin number and optional arguments from the message and
    drives an Arduino board. The board is a parameter: for each call it
    either answers with a number or raises. The handler's reply is the
    string it returns, or None. */
module Nanpy {
  import opened Wrappers
  import opened Components
  import Text

  datatype Mode = Input | Output

  datatype Level = High | Low

  /** One call on the board. */
  datatype Action =
    | PinMode(pin: int, mode: Mode)
    | AnalogRead(pin: int)
    | DigitalRead(pin: int)
    | AnalogWrite(pin: int, value: int)
    | DigitalWrite(pin: int, level: Level)

  /** What the board does for a call: None when the call raises; a read
      answers with the number it read. */
  type Board = Action -> Option<int>

  /** What an operation hands back to the handler: nothing, a number, or a
      string. */
  datatype PyValue = PyNone | PyInt(n: int) | PyStr(s: string)

  /** An operation's end: the board calls it made (the last one is the one
      that raised, if any) and its value, or an exception. */
  datatype OpResult = OpReturned(actions: seq<Action>, value: PyValue) | OpRaised(actions: seq<Action>)

  /** One handler invocation: the board calls it made and its reply. */
  datatype Response = Response(actions: seq<Action>, reply: Option<string>)

  const TOO_SHORT: string := "ERROR: message must contain at least 2 words!"
  const NON_INT_PIN: string := "ERROR: got non-int for pin number "
  const UNKNOWN_FUNCTION: string :=
    "ERROR: not one of the known functions, dict_keys(['dwrite', 'awrite', 'dread', 'aread'])"
  const NON_INT_VALUE: string := "ERROR: Got a value that could not be treated as integer"

  /** The reply for an operation that raised. */
  function FailedReply(msg: string): string {
    "ERROR: \"" + msg + "\" failed, maybe a bad message or connection"
  }

  /** The command words the handler recognises. */
  const KEYWORDS: set<string> := {"dwrite", "awrite", "dread", "aread"}

  /** Two board calls in order, stopping at the first that raises; the
      value is the second call's answer. */
  function Calls2(board: Board, a: Action, b: Action): (r: OpResult)
    ensures board(a).None? ==> r == OpRaised([a])
    ensures board(a).Some? && board(b).None? ==> r == OpRaised([a, b])
    ensures board(a).Some? && board(b).Some? ==> r.OpReturned? && r.actions == [a, b]
  {
    if board(a).None? then OpRaised([a])
    else if board(b).None? then OpRaised([a, b])
    else OpReturned([a, b], PyInt(board(b).value))
  }

  /** `analog_read`: set the pin to input, read it, return the reading. */
  function AnalogReadOp(board: Board, pin: int): (r: OpResult)
    ensures board(PinMode(pin, Input)).None? ==> r == OpRaised([PinMode(pin, Input)])
    ensures board(PinMode(pin, Input)).Some? && board(AnalogRead(pin)).None? ==>
      r == OpRaised([PinMode(pin, Input), AnalogRead(pin)])
    ensures board(PinMode(pin, Input)).Some? && board(AnalogRead(pin)).Some? ==>
      r == OpReturned([PinMode(pin, Input), AnalogRead(pin)], PyInt(board(AnalogRead(pin)).value))
  {
    Calls2(board, PinMode(pin, Input), AnalogRead(pin))
  }

  /** `digital_read`: set the pin to input, read it, return the reading. */
  function DigitalReadOp(board: Board, pin: int): (r: OpResult)
    ensures board(PinMode(pin, Input)).None? ==> r == OpRaised([PinMode(pin, Input)])
    ensures board(PinMode(pin, Input)).Some? && board(DigitalRead(pin)).None? ==>
      r == OpRaised([PinMode(pin, Input), DigitalRead(pin)])
    ensures board(PinMode(pin, Input)).Some? && board(DigitalRead(pin)).Some? ==>
      r == OpReturned([PinMode(pin, Input), DigitalRead(pin)], PyInt(board(DigitalRead(pin)).value))
  {
    Calls2(board, PinMode(pin, Input), DigitalRead(pin))
  }

  /** `analog_write`: without a value argument the call itself raises a
      TypeError; a value that `int()` rejects gives an error string and no
      board call; otherwise set the pin to output and write the value. */
  function AnalogWriteOp(board: Board, pin: int, args: seq<string>): (r: OpResult)
    ensures args == [] ==> r == OpRaised([])
    ensures args != [] && Text.ParseInt(args[0]).Err? ==> r == OpReturned([], PyStr(NON_INT_VALUE))
    ensures args != [] && Text.ParseInt(args[0]).Ok? ==>
      var a, b := PinMode(pin, Output), AnalogWrite(pin, Text.ParseInt(args[0]).value);
      && (board(a).None? ==> r == OpRaised([a]))
      && (board(a).Some? && board(b).None? ==> r == OpRaised([a, b]))
      && (board(a).Some? && board(b).Some? ==> r == OpReturned([a, b], PyNone))
  {
    if args == [] then OpRaised([])
    else
      match Text.ParseInt(args[0])
      case Err(_) => OpReturned([], PyStr(NON_INT_VALUE))
      case Ok(value) =>
        match Calls2(board, PinMode(pin, Output), AnalogWrite(pin, value))
        case OpRaised(acts) => OpRaised(acts)
        case OpReturned(acts, _) => OpReturned(acts, PyNone)
  }

  /** `digital_write`: without a value argument the call raises a TypeError;
      otherwise set the pin to output and write HIGH for exactly the word
      `high`, LOW for anything else. */
  function DigitalWriteOp(board: Board, pin: int, args: seq<string>): (r: OpResult)
    ensures args == [] ==> r == OpRaised([])
    ensures args != [] ==>
      var a, b := PinMode(pin, Output), DigitalWrite(pin, if args[0] == "high" then High else Low);
      && (board(a).None? ==> r == OpRaised([a]))
      && (board(a).Some? && board(b).None? ==> r == OpRaised([a, b]))
      && (board(a).Some? && board(b).Some? ==> r == OpReturned([a, b], PyNone))
  {
    if args == [] then OpRaised([])
    else
      var level := if args[0] == "high" then High else Low;
      match Calls2(board, PinMode(pin, Output), DigitalWrite(pin, level))
      case OpRaised(acts) => OpRaised(acts)
      case OpReturned(acts, _) => OpReturned(acts, PyNone)
  }

  /** `word_map[key_word](pin, *words[2:])`. */
  function Dispatch(keyword: string, pin: int, args: seq<string>, board: Board): (r: OpResult)
    requires keyword in KEYWORDS
    ensures keyword == "aread" ==> r == AnalogReadOp(board, pin)
    ensures keyword == "dread" ==> r == DigitalReadOp(board, pin)
    ensures keyword == "awrite" ==> r == AnalogWriteOp(board, pin, args)
    ensures keyword == "dwrite" ==> r == DigitalWriteOp(board, pin, args)
  {
    if keyword == "dwrite" then DigitalWriteOp(board, pin, args)
    else if keyword == "awrite" then AnalogWriteOp(board, pin, args)
    else if keyword == "dread" then DigitalReadOp(board, pin)
    else AnalogReadOp(board, pin)
  }

  /** `str(ret_val)` unless it is None. */
  function ReplyOf(v: PyValue): (reply: Option<string>)
    ensures v.PyNone? <==> reply.None?
    ensures v.PyStr? ==> reply == Some(v.s)
    ensures v.PyInt? ==> Text.ParseInt(reply.value) == Ok(v.n)
  {
    match v
    case PyNone => None
    case PyInt(n) => Text.IntToStringRoundTrip(n); Some(Text.IntToString(n))
    case PyStr(s) => Some(s)
  }

  /** `GenericNanpy.handler` on the words of `msg`. The checks come in a
      fixed order: at least two words, then an integer pin, then a known
      command word; only then is the board touched. Anything the operation
      raises is caught and reported with the whole message. */
  function HandleWords(words: seq<string>, msg: string, board: Board): (r: Response)
    ensures |words| < 2 ==> r == Response([], Some(TOO_SHORT))
    ensures |words| >= 2 && Text.ParseInt(words[1]).Err? ==>
      r == Response([], Some(NON_INT_PIN + words[1]))
    ensures |words| >= 2 && Text.ParseInt(words[1]).Ok? && words[0] !in KEYWORDS ==>
      r == Response([], Some(UNKNOWN_FUNCTION))
    ensures r.actions != [] ==>
      && |words| >= 2 && Text.ParseInt(words[1]).Ok? && words[0] in KEYWORDS
      && forall i :: 0 <= i < |r.actions| ==> r.actions[i].pin == Text.ParseInt(words[1]).value
    ensures |words| >= 2 && Text.ParseInt(words[1]).Ok? && words[0] in KEYWORDS ==>
      var op := Dispatch(words[0], Text.ParseInt(words[1]).value, words[2..], board);
      && r.actions == op.actions
      && (op.OpRaised? ==> r.reply == Some(FailedReply(msg)))
      && (op.OpReturned? ==> r.reply == ReplyOf(op.value))
  {
    if |words| < 2 then Response([], Some(TOO_SHORT))
    else
      match Text.ParseInt(words[1])
      case Err(_) => Response([], Some(NON_INT_PIN + words[1]))
      case Ok(pin) =>
        if words[0] !in KEYWORDS then Response([], Some(UNKNOWN_FUNCTION))
        else
          match Dispatch(words[0], pin, words[2..], board)
          case OpRaised(acts) => Response(acts, Some(FailedReply(msg)))
          case OpReturned(acts, v) => Response(acts, ReplyOf(v))
  }

  /** `GenericNanpy.handler`: split the message into words and handle them. */
  function Handle(msg: string, board: Board): (r: Response)
    ensures Text.AllSpace(msg) ==> r == Response([], Some(TOO_SHORT))
    ensures var ws := Text.Words(msg);
      && (|ws| < 2 ==> r == Response([], Some(TOO_SHORT)))
      && (|ws| >= 2 && Text.ParseInt(ws[1]).Err? ==> r == Response([], Some(NON_INT_PIN + ws[1])))
      && (|ws| >= 2 && Text.ParseInt(ws[1]).Ok? && ws[0] !in KEYWORDS ==> r == Response([], Some(UNKNOWN_FUNCTION)))
      && (|ws| >= 2 && Text.ParseInt(ws[1]).Ok? && ws[0] in KEYWORDS ==>
            var op := Dispatch(ws[0], Text.ParseInt(ws[1]).value, ws[2..], board);
            && r.actions == op.actions
            && (op.OpRaised? ==> r.reply == Some(FailedReply(msg)))
            && (op.OpReturned? ==> r.reply == ReplyOf(op.value)))
  {
    Text.WordsEmptyIffBlank(msg);
    HandleWords(Text.Words(msg), msg, board)
  }

  /** The handler as the component runs it: it never raises, and the topic
      a subscriber passes is ignored. */
  function NanpyHandler(board: Board): Handler {
    (c: Call) => Returned(Handle(c.msg, board).reply)
  }

  // ---- commands as a client formats them -----------------------------------

  /** A well-formed command. */
  datatype Command =
    | ARead(pin: int)
    | DRead(pin: int)
    | AWrite(pin: int, value: int)
    | DWrite(pin: int, high: bool)

  function CommandWords(c: Command): seq<string> {
    match c
    case ARead(p) => ["aread", Text.IntToString(p)]
    case DRead(p) => ["dread", Text.IntToString(p)]
    case AWrite(p, v) => ["awrite", Text.IntToString(p), Text.IntToString(v)]
    case DWrite(p, h) => ["dwrite", Text.IntToString(p), if h then "high" else "low"]
  }

  /** The message a client sends for a command: its words, space separated. */
  function Format(c: Command): string {
    Text.JoinWords(CommandWords(c))
  }

  /** The board calls a command is meant to make. */
  function Expected(c: Command): seq<Action> {
    match c
    case ARead(p) => [PinMode(p, Input), AnalogRead(p)]
    case DRead(p) => [PinMode(p, Input), DigitalRead(p)]
    case AWrite(p, v) => [PinMode(p, Output), AnalogWrite(p, v)]
    case DWrite(p, h) => [PinMode(p, Output), DigitalWrite(p, if h then High else Low)]
  }

  /** The reply a command is meant to get from a board that never raises:
      the reading for a read, None (acknowledged as ACK) for a write. */
  function ExpectedReply(c: Command, board: Board): Option<string>
    requires board(Expected(c)[1]).Some?
  {
    match c
    case ARead(p) => Some(Text.IntToString(board(AnalogRead(p)).value))
    case DRead(p) => Some(Text.IntToString(board(DigitalRead(p)).value))
    case AWrite(_, _) => None
    case DWrite(_, _) => None
  }

  // ---- properties -----------------------------------------------------------

  /** The handler parses back every formatted command: on a board where the
      command's calls succeed it makes exactly the intended calls and gives
      the intended reply; where one of them raises, it stops there and
      reports the failure. */
  lemma HandleOfFormat(c: Command, board: Board)
    ensures var r := Handle(Format(c), board);
      && r.actions <= Expected(c)
      && (board(Expected(c)[0]).Some? && board(Expected(c)[1]).Some? ==>
            r == Response(Expected(c), ExpectedReply(c, board)))
      && (board(Expected(c)[0]).None? || board(Expected(c)[1]).None? ==>
            r.reply == Some(FailedReply(Format(c))))
  {
    var ws := CommandWords(c);
    Text.IntToStringIsWord(c.pin);
    if c.AWrite? {
      Text.IntToStringIsWord(c.value);
    }
    Text.WordsOfJoin(ws);
    HandleWordsOfCommand(c, Format(c), board);
  }

  lemma HandleWordsOfCommand(c: Command, msg: string, board: Board)
    ensures var r := HandleWords(CommandWords(c), msg, board);
      && r.actions <= Expected(c)
      && (board(Expected(c)[0]).Some? && board(Expected(c)[1]).Some? ==>
            r == Response(Expected(c), ExpectedReply(c, board)))
      && (board(Expected(c)[0]).None? || board(Expected(c)[1]).None? ==>
            r.reply == Some(FailedReply(msg)))
  {
    var ws := CommandWords(c);
    Text.IntToStringRoundTrip(c.pin);
    assert ws[0] in KEYWORDS;
    match c
    case ARead(p) =>
      assert ws[0] == "aread";
    case DRead(p) =>
      assert ws[0] == "dread";
    case AWrite(p, v) =>
      Text.IntToStringRoundTrip(v);
      assert ws[0] == "awrite" && ws[2..] == [Text.IntToString(v)];
    case DWrite(p, h) =>
      assert ws[0] == "dwrite" && ws[2..] == [if h then "high" else "low"];
  }

  /** `digital_write` writes HIGH exactly when the value word is `high`. */
  lemma DigitalWriteHighIff(msg: string, board: Board)
    requires |Text.Words(msg)| >= 3 && Text.Words(msg)[0] == "dwrite"
    requires Text.ParseInt(Text.Words(msg)[1]).Ok?
    requires board(PinMode(Text.ParseInt(Text.Words(msg)[1]).value, Output)).Some?
    ensures var pin := Text.ParseInt(Text.Words(msg)[1]).value;
      var r := Handle(msg, board);
      && |r.actions| == 2
      && (r.actions[1] == DigitalWrite(pin, High) <==> Text.Words(msg)[2] == "high")
      && (r.actions[1] == DigitalWrite(pin, Low) <==> Text.Words(msg)[2] != "high")
  {
  }

  /** `analog_write` with a value `int()` rejects answers with an error
      string and leaves the board alone; with an integer value it sets the
      pin to output and writes exactly that value. */
  lemma AnalogWriteChecksValue(msg: string, board: Board)
    requires |Text.Words(msg)| >= 3 && Text.Words(msg)[0] == "awrite"
    requires Text.ParseInt(Text.Words(msg)[1]).Ok?
    ensures var pin := Text.ParseInt(Text.Words(msg)[1]).value;
      var value := Text.ParseInt(Text.Words(msg)[2]);
      var r := Handle(msg, board);
      && (value.Err? ==> r == Response([], Some(NON_INT_VALUE)))
      && (value.Ok? && board(PinMode(pin, Output)).Some? && board(AnalogWrite(pin, value.value)).Some? ==>
            r == Response([PinMode(pin, Output), AnalogWrite(pin, value.value)], None))
  {
    var words := Text.Words(msg);
    assert words[2..][0] == words[2];
  }

  /** A write command without a value word fails inside the operation,
      which the handler reports as a failure of the whole message. */
  lemma WriteWithoutValueFails(msg: string, board: Board)
    requires |Text.Words(msg)| == 2
    requires Text.Words(msg)[0] == "awrite" || Text.Words(msg)[0] == "dwrite"
    requires Text.ParseInt(Text.Words(msg)[1]).Ok?
    ensures Handle(msg, board) == Response([], Some(FailedReply(msg)))
  {
    assert Text.Words(msg)[2..] == [];
  }

  /** A read replies with the decimal text of the number read, which a
      client turns back into that number. */
  lemma ReadReplyParses(msg: string, board: Board)
    requires |Text.Words(msg)| >= 2 && Text.Words(msg)[0] in {"aread", "dread"}
    requires Text.ParseInt(Text.Words(msg)[1]).Ok?
    ensures var pin := Text.ParseInt(Text.Words(msg)[1]).value;
      var read := if Text.Words(msg)[0] == "aread" then AnalogRead(pin) else DigitalRead(pin);
      var r := Handle(msg, board);
      board(PinMode(pin, Input)).Some? && board(read).Some? ==>
        && r.actions == [PinMode(pin, Input), read]
        && r.reply == Some(Text.IntToString(board(read).value))
        && Text.ParseInt(r.reply.value) == Ok(board(read).value)
  {
    var pin := Text.ParseInt(Text.Words(msg)[1]).value;
    var read := if Text.Words(msg)[0] == "aread" then AnalogRead(pin) else DigitalRead(pin);
    if board(read).Some? {
      Text.IntToStringRoundTrip(board(read).value);
    }
  }

  /** A NanPy device's runner never dies of its handler: while every entry
      has a reply queue (as every router enqueue gives it), every job it
      takes is run, and a reply is pushed for every job that awaits one. */
  lemma NanpyRunnerNeverFails(d: Device, qs: Queues, board: Board)
    requires Valid(d) && d.discipline == Serial && d.jobs != []
    requires forall k :: k in d.meta ==> d.meta[k].returnQueue.Some?
    ensures SerialStep(d, qs, NanpyHandler(board)).Stepped?
  {
    SerialStepNeverKeyError(d, qs, NanpyHandler(board));
    if d.jobs[0].id.Some? {
      assert Outstanding(d)[0] == d.jobs[0];
    }
  }
}

=== FILE: runners.dfy ===
/** A component's runner interleaved with the listeners that feed it. Each
    event is one atomic step: a listener enqueues a call, the runner takes
    the next job (a serial runner also runs it to completion; an asynchronous
    runner starts it as a task), or an in-flight task finishes. */
module Runners {
  import opened Wrappers
  import opened Components

  datatype Event =
    | Put(msg: string, headers: Option<Message>, returnQueue: Option<QueueRef>, topic: Option<string>)
    | Take
    | Finish(task: nat)

  /** A request whose reply is awaited, as its `Put` gave it: the bound
      call, the routing frames and the reply queue. */
  datatype LoggedRequest = LoggedRequest(call: Call, headers: Message, returnQueue: Option<QueueRef>)

  /** The state of a run: the component, the reply queues, the calls the
      runner has taken so far in the order it took them, whether an
      exception has ended the runner, and every request with headers that
      has been put, under the id it was issued. */
  datatype RunState = RunState(device: Device, queues: Queues, taken: seq<Call>, halted: bool,
                               requests: map<Id, LoggedRequest>)

  /** A run on a new component, with empty reply queues. */
  function Start(discipline: Discipline): (r: RunState)
    ensures Valid(r.device) && Tight(r.device) && r.device.discipline == discipline
    ensures r.queues == map[] && r.requests == map[] && !r.halted
  {
    RunState(NewComponent(discipline, Some(EventLoop)).value, map[], [], false, map[])
  }

  function Calls(js: seq<Job>): (cs: seq<Call>)
    ensures |cs| == |js|
    ensures forall j :: 0 <= j < |js| ==> cs[j] == js[j].call
  {
    if js == [] then [] else [js[0].call] + Calls(js[1..])
  }

  /** The call an event enqueues, if it is an enqueue. */
  function PutCall(e: Event): seq<Call> {
    if e.Put? then [Call(e.msg, e.topic)] else []
  }

  /** The calls the listeners enqueue during `evs`, in order. */
  function PutCalls(evs: seq<Event>): seq<Call> {
    if evs == [] then [] else PutCall(evs[0]) + PutCalls(evs[1..])
  }

  function Apply(r: RunState, handler: Handler, e: Event): RunState {
    if r.halted then r
    else
      match e
      case Put(m, h, q, t) =>
        var logged := if h.Some? then r.requests[r.device.nextId := LoggedRequest(Call(m, t), h.value, q)] else r.requests;
        r.(device := Enqueue(r.device, m, h, q, t), requests := logged)
      case Take =>
        if r.device.discipline == Serial then
          (match SerialStep(r.device, r.queues, handler)
           case Idle => r
           case Stepped(d, qs, c) => r.(device := d, queues := qs, taken := r.taken + [c])
           case Failed(_) => r.(halted := true))
        else
          (match AsyncStart(r.device)
           case None => r
           case Some(d) => r.(device := d, taken := r.taken + [r.device.jobs[0].call]))
      case Finish(i) =>
        if r.device.discipline == Async && i < |r.device.running| then
          var c := AsyncComplete(r.device, r.queues, i, handler);
          r.(device := c.device, queues := c.queues)
        else r
  }

  function Replay(r: RunState, handler: Handler, evs: seq<Event>): RunState
    decreases |evs|
  {
    if evs == [] then r else Replay(Apply(r, handler, evs[0]), handler, evs[1..])
  }

  lemma {:induction false} HaltedStaysHalted(r: RunState, handler: Handler, evs: seq<Event>)
    requires r.halted
    ensures Replay(r, handler, evs) == r
    decreases |evs|
  {
    if evs != [] {
      HaltedStaysHalted(Apply(r, handler, evs[0]), handler, evs[1..]);
    }
  }

  lemma CallsAppend(a: seq<Job>, b: seq<Job>)
    ensures Calls(a + b) == Calls(a) + Calls(b)
  {
  }

  /** One event keeps "taken, then still queued" equal to "everything ever
      queued", or halts without taking anything. */
  lemma ApplyKeepsOrder(r: RunState, handler: Handler, e: Event)
    requires !r.halted
    ensures var r' := Apply(r, handler, e);
      && r.taken <= r'.taken
      && (r'.halted ==> r'.taken == r.taken)
      && (!r'.halted ==>
            r'.taken + Calls(r'.device.jobs) == r.taken + Calls(r.device.jobs) + PutCall(e))
  {
    match e
    case Put(m, h, q, t) => PutKeepsOrder(r, m, h, q, t);
    case Take =>
      if r.device.discipline == Serial {
        if SerialStep(r.device, r.queues, handler).Stepped? {
          SerialTakeKeepsOrder(r, handler);
        }
      } else if r.device.jobs != [] {
        AsyncTakeKeepsOrder(r);
      }
    case Finish(i) =>
  }

  lemma PutKeepsOrder(r: RunState, m: string, h: Option<Message>, q: Option<QueueRef>, t: Option<string>)
    ensures Calls(Enqueue(r.device, m, h, q, t).jobs) == Calls(r.device.jobs) + [Call(m, t)]
  {
    var js := Enqueue(r.device, m, h, q, t).jobs;
    assert js == r.device.jobs + [js[|r.device.jobs|]];
    CallsAppend(r.device.jobs, [js[|r.device.jobs|]]);
  }

  lemma SerialTakeKeepsOrder(r: RunState, handler: Handler)
    requires SerialStep(r.device, r.queues, handler).Stepped?
    ensures var s := SerialStep(r.device, r.queues, handler);
      r.taken + [s.ran] + Calls(s.device.jobs) == r.taken + Calls(r.device.jobs)
  {
    var js := r.device.jobs;
    assert js == [js[0]] + js[1..];
    CallsAppend([js[0]], js[1..]);
  }

  lemma AsyncTakeKeepsOrder(r: RunState)
    requires AsyncStart(r.device).Some?
    ensures var d := AsyncStart(r.device).value;
      r.taken + [r.device.jobs[0].call] + Calls(d.jobs) == r.taken + Calls(r.device.jobs)
  {
    var js := r.device.jobs;
    assert js == [js[0]] + js[1..];
    CallsAppend([js[0]], js[1..]);
  }

  /** Jobs are taken in exactly the order they were enqueued, whatever the
      interleaving of enqueues, takes and task ends: what the runner has taken
      is always a prefix of everything queued, and while no exception has
      ended the runner, taken followed by still-queued is everything queued.
      For a serial component a job is taken only once its predecessor's
      handler has returned, so handlers run one at a time in enqueue order;
      for an asynchronous one this is the order tasks start in. */
  lemma {:induction false} TakenInEnqueueOrder(r: RunState, handler: Handler, evs: seq<Event>)
    requires !r.halted
    ensures var r' := Replay(r, handler, evs);
      && r'.taken <= r.taken + Calls(r.device.jobs) + PutCalls(evs)
      && (!r'.halted ==>
            r'.taken + Calls(r'.device.jobs) == r.taken + Calls(r.device.jobs) + PutCalls(evs))
    decreases |evs|
  {
    if evs != [] {
      var r1 := Apply(r, handler, evs[0]);
      ApplyKeepsOrder(r, handler, evs[0]);
      assert PutCalls(evs) == PutCall(evs[0]) + PutCalls(evs[1..]);
      Regroup(r.taken, Calls(r.device.jobs), PutCall(evs[0]), PutCalls(evs[1..]));
      if r1.halted {
        HaltedStaysHalted(r1, handler, evs[1..]);
      } else {
        TakenInEnqueueOrder(r1, handler, evs[1..]);
      }
    }
  }

  /** Concatenation regrouped: the history before an event, the event's
      call, then the rest. */
  lemma Regroup(taken: seq<Call>, queued: seq<Call>, put: seq<Call>, rest: seq<Call>)
    ensures taken + queued + (put + rest) == taken + queued + put + rest
    ensures taken <= taken + queued + (put + rest)
  {
    assert (taken + queued + (put + rest))[..|taken|] == taken;
  }

  /** Every interleaving keeps the correlation invariant, so no runner and
      no task ever pops a missing entry. */
  lemma {:induction false} ReplayPreservesValid(r: RunState, handler: Handler, evs: seq<Event>)
    requires Valid(r.device)
    ensures Valid(Replay(r, handler, evs).device)
    decreases |evs|
  {
    if evs != [] {
      ApplyPreservesValid(r, handler, evs[0]);
      ReplayPreservesValid(Apply(r, handler, evs[0]), handler, evs[1..]);
    }
  }

  lemma ApplyPreservesValid(r: RunState, handler: Handler, e: Event)
    requires Valid(r.device)
    ensures Valid(Apply(r, handler, e).device)
  {
    if !r.halted {
      match e
      case Put(m, h, q, t) =>
        EnqueuePreservesValid(r.device, m, h, q, t);
      case Take =>
        if r.device.discipline == Serial {
          if SerialStep(r.device, r.queues, handler).Stepped? {
            SerialStepPreservesValid(r.device, r.queues, handler);
          }
        } else if r.device.jobs != [] {
          AsyncStartPreservesValid(r.device);
        }
      case Finish(i) =>
        if r.device.discipline == Async && i < |r.device.running| {
          AsyncCompletePreservesValid(r.device, r.queues, i, handler);
        }
    }
  }

  // ---- orphaned entries -----------------------------------------------------

  /** Entry `k` is orphaned: it is in the table, but no outstanding job
      carries its id, so no runner or task will ever pop it. */
  predicate Orphaned(d: Device, k: Id) {
    k in d.meta && !Carries(Outstanding(d), k)
  }

  lemma NotCarriedAfterAppend(js: seq<Job>, x: Job, k: Id)
    requires !Carries(js, k) && x.id != Some(k)
    ensures !Carries(js + [x], k)
  {
    forall j | 0 <= j < |js + [x]|
      ensures (js + [x])[j].id != Some(k)
    {
      if j < |js| {
        assert (js + [x])[j] == js[j];
      }
    }
  }

  lemma NotCarriedAfterRemove(js: seq<Job>, i: nat, k: Id)
    requires i < |js| && !Carries(js, k)
    ensures !Carries(js[..i] + js[i + 1..], k)
  {
    var r := js[..i] + js[i + 1..];
    forall j | 0 <= j < |r|
      ensures r[j].id != Some(k)
    {
      if j < i {
        assert r[j] == js[j];
      } else {
        assert r[j] == js[j + 1];
      }
    }
  }

  lemma EnqueueKeepsOrphaned(d: Device, m: string, h: Option<Message>, q: Option<QueueRef>, t: Option<string>, k: Id)
    requires Valid(d) && Orphaned(d, k)
    ensures var d' := Enqueue(d, m, h, q, t); Orphaned(d', k) && d'.meta[k] == d.meta[k]
  {
    var d' := Enqueue(d, m, h, q, t);
    assert Outstanding(d') == Outstanding(d) + [d'.jobs[|d.jobs|]];
    NotCarriedAfterAppend(Outstanding(d), d'.jobs[|d.jobs|], k);
  }

  lemma SerialStepKeepsOrphaned(d: Device, qs: Queues, handler: Handler, k: Id)
    requires Valid(d) && Orphaned(d, k) && d.discipline == Serial
    requires SerialStep(d, qs, handler).Stepped?
    ensures var d' := SerialStep(d, qs, handler).device; Orphaned(d', k) && d'.meta[k] == d.meta[k]
  {
    var o := Outstanding(d);
    var d' := SerialStep(d, qs, handler).device;
    assert o[0] == d.jobs[0];
    assert Outstanding(d') == o[..0] + o[1..];
    NotCarriedAfterRemove(o, 0, k);
  }

  lemma AsyncCompleteKeepsOrphaned(d: Device, qs: Queues, i: nat, handler: Handler, k: Id)
    requires Valid(d) && Orphaned(d, k) && i < |d.running|
    ensures var d' := AsyncComplete(d, qs, i, handler).device; Orphaned(d', k) && d'.meta[k] == d.meta[k]
  {
    var o := Outstanding(d);
    var d' := AsyncComplete(d, qs, i, handler).device;
    assert o[i] == d.running[i];
    assert Outstanding(d') == o[..i] + o[i + 1..];
    NotCarriedAfterRemove(o, i, k);
  }

  /** No event adopts an orphaned entry, removes it or changes it. */
  lemma ApplyKeepsOrphaned(r: RunState, handler: Handler, e: Event, k: Id)
    requires Valid(r.device) && Orphaned(r.device, k)
    ensures var r' := Apply(r, handler, e);
      Orphaned(r'.device, k) && r'.device.meta[k] == r.device.meta[k]
  {
    if !r.halted {
      match e
      case Put(m, h, q, t) =>
        EnqueueKeepsOrphaned(r.device, m, h, q, t, k);
      case Take =>
        if r.device.discipline == Serial && SerialStep(r.device, r.queues, handler).Stepped? {
          SerialStepKeepsOrphaned(r.device, r.queues, handler, k);
        }
      case Finish(i) =>
        if r.device.discipline == Async && i < |r.device.running| {
          AsyncCompleteKeepsOrphaned(r.device, r.queues, i, handler, k);
        }
    }
  }

  /** An orphaned entry stays in the table, unchanged and uncarried, under
      every later interleaving of enqueues, takes and task ends. */
  lemma {:induction false} OrphanedForever(r: RunState, handler: Handler, evs: seq<Event>, k: Id)
    requires Valid(r.device) && Orphaned(r.device, k)
    ensures var r' := Replay(r, handler, evs);
      Orphaned(r'.device, k) && r'.device.meta[k] == r.device.meta[k]
    decreases |evs|
  {
    if evs != [] {
      ApplyKeepsOrphaned(r, handler, evs[0], k);
      ApplyPreservesValid(r, handler, evs[0]);
      OrphanedForever(Apply(r, handler, evs[0]), handler, evs[1..], k);
    }
  }

  /** The asynchronous leak is permanent: once the handler of a task that
      awaits a reply raises, its entry is never popped, whatever happens
      afterwards, and the table never becomes tight again. */
  lemma RaisedTaskLeaksForever(r: RunState, handler: Handler, i: nat, evs: seq<Event>)
    requires Valid(r.device) && !r.halted && r.device.discipline == Async
    requires i < |r.device.running| && r.device.running[i].id.Some?
    requires handler(r.device.running[i].call).Raised?
    ensures var r' := Replay(r, handler, [Finish(i)] + evs);
      var k := r.device.running[i].id.value;
      && k in r.device.meta
      && Orphaned(r'.device, k)
      && r'.device.meta[k] == r.device.meta[k]
      && !Tight(r'.device)
  {
    var k := r.device.running[i].id.value;
    var r1 := Apply(r, handler, Finish(i));
    AsyncRaiseLeavesOrphanEntry(r.device, r.queues, i, handler);
    AsyncCompletePreservesValid(r.device, r.queues, i, handler);
    OrphanedForever(r1, handler, evs, k);
    assert ([Finish(i)] + evs)[1..] == evs;
  }

  // ---- consumed entries -----------------------------------------------------

  /** Id `k` is used up: the counter has issued it, its entry is gone, and
      no outstanding job carries it. */
  predicate Consumed(d: Device, k: Id) {
    k < d.nextId && k !in d.meta && !Carries(Outstanding(d), k)
  }

  /** A serial step that pops an entry uses its id up. */
  lemma SerialStepConsumes(d: Device, qs: Queues, handler: Handler)
    requires Valid(d) && d.discipline == Serial && SerialStep(d, qs, handler).Stepped?
    requires d.jobs[0].id.Some?
    ensures Consumed(SerialStep(d, qs, handler).device, d.jobs[0].id.value)
  {
    SerialStepPreservesValid(d, qs, handler);
    assert Outstanding(d)[0] == d.jobs[0];
  }

  /** A task whose handler returns pops its entry and uses its id up. */
  lemma AsyncCompleteConsumes(d: Device, qs: Queues, i: nat, handler: Handler)
    requires Valid(d) && i < |d.running| && d.running[i].id.Some?
    requires handler(d.running[i].call).Returned?
    ensures Consumed(AsyncComplete(d, qs, i, handler).device, d.running[i].id.value)
  {
    AsyncCompletePreservesValid(d, qs, i, handler);
    assert Outstanding(d)[i] == d.running[i];
  }

  lemma EnqueueKeepsConsumed(d: Device, m: string, h: Option<Message>, q: Option<QueueRef>, t: Option<string>, k: Id)
    requires Consumed(d, k)
    ensures Consumed(Enqueue(d, m, h, q, t), k)
  {
    var d' := Enqueue(d, m, h, q, t);
    assert Outstanding(d') == Outstanding(d) + [d'.jobs[|d.jobs|]];
    NotCarriedAfterAppend(Outstanding(d), d'.jobs[|d.jobs|], k);
  }

  lemma SerialStepKeepsConsumed(d: Device, qs: Queues, handler: Handler, k: Id)
    requires Valid(d) && Consumed(d, k) && d.discipline == Serial
    requires SerialStep(d, qs, handler).Stepped?
    ensures Consumed(SerialStep(d, qs, handler).device, k)
  {
    var o := Outstanding(d);
    var d' := SerialStep(d, qs, handler).device;
    assert o[0] == d.jobs[0];
    assert Outstanding(d') == o[..0] + o[1..];
    NotCarriedAfterRemove(o, 0, k);
  }

  lemma AsyncCompleteKeepsConsumed(d: Device, qs: Queues, i: nat, handler: Handler, k: Id)
    requires Consumed(d, k) && i < |d.running|
    ensures Consumed(AsyncComplete(d, qs, i, handler).device, k)
  {
    var o := Outstanding(d);
    var d' := AsyncComplete(d, qs, i, handler).device;
    assert o[i] == d.running[i];
    assert Outstanding(d') == o[..i] + o[i + 1..];
    NotCarriedAfterRemove(o, i, k);
  }

  /** No event reissues a used-up id, carries it again or gives it an entry. */
  lemma ApplyKeepsConsumed(r: RunState, handler: Handler, e: Event, k: Id)
    requires Valid(r.device) && Consumed(r.device, k)
    ensures Consumed(Apply(r, handler, e).device, k)
  {
    if !r.halted {
      match e
      case Put(m, h, q, t) =>
        EnqueueKeepsConsumed(r.device, m, h, q, t, k);
      case Take =>
        if r.device.discipline == Serial && SerialStep(r.device, r.queues, handler).Stepped? {
          SerialStepKeepsConsumed(r.device, r.queues, handler, k);
        }
      case Finish(i) =>
        if r.device.discipline == Async && i < |r.device.running| {
          AsyncCompleteKeepsConsumed(r.device, r.queues, i, handler, k);
        }
    }
  }

  /** A used-up id stays used up under every later interleaving: it is
      never issued again, no job carries it and it never regains an entry,
      so its request is answered at most once. */
  lemma {:induction false} ConsumedForever(r: RunState, handler: Handler, evs: seq<Event>, k: Id)
    requires Valid(r.device) && Consumed(r.device, k)
    ensures Consumed(Replay(r, handler, evs).device, k)
    decreases |evs|
  {
    if evs != [] {
      ApplyKeepsConsumed(r, handler, evs[0], k);
      ApplyPreservesValid(r, handler, evs[0]);
      ConsumedForever(Apply(r, handler, evs[0]), handler, evs[1..], k);
    }
  }

  /** The entry a serial runner pops is popped exactly once: after that
      take, whatever events follow, its id stays used up. */
  lemma SerialTakeConsumesForever(r: RunState, handler: Handler, evs: seq<Event>)
    requires Valid(r.device) && !r.halted && r.device.discipline == Serial
    requires SerialStep(r.device, r.queues, handler).Stepped? && r.device.jobs[0].id.Some?
    ensures Consumed(Replay(r, handler, [Take] + evs).device, r.device.jobs[0].id.value)
  {
    SerialStepConsumes(r.device, r.queues, handler);
    ApplyPreservesValid(r, handler, Take);
    ConsumedForever(Apply(r, handler, Take), handler, evs, r.device.jobs[0].id.value);
    assert ([Take] + evs)[1..] == evs;
  }

  /** The entry a returning task pops is popped exactly once: after that
      completion, whatever events follow, its id stays used up. */
  lemma FinishConsumesForever(r: RunState, handler: Handler, i: nat, evs: seq<Event>)
    requires Valid(r.device) && !r.halted && r.device.discipline == Async
    requires i < |r.device.running| && r.device.running[i].id.Some?
    requires handler(r.device.running[i].call).Returned?
    ensures Consumed(Replay(r, handler, [Finish(i)] + evs).device, r.device.running[i].id.value)
  {
    AsyncCompleteConsumes(r.device, r.queues, i, handler);
    ApplyPreservesValid(r, handler, Finish(i));
    ConsumedForever(Apply(r, handler, Finish(i)), handler, evs, r.device.running[i].id.value);
    assert ([Finish(i)] + evs)[1..] == evs;
  }

  // ---- reply correlation ----------------------------------------------------

  /** `m` is the reply to `req` on queue `q`: the request named that queue,
      its handler returned, and `m` is its routing frames followed by the
      encoded reply text. */
  predicate Answers(req: LoggedRequest, handler: Handler, q: QueueRef, m: Message) {
    && req.returnQueue == Some(q)
    && handler(req.call).Returned?
    && m == Reply(req.headers, handler(req.call).value)
  }

  /** `m` answers one of the logged requests. */
  ghost predicate AnswersLogged(requests: map<Id, LoggedRequest>, handler: Handler, q: QueueRef, m: Message) {
    exists k :: k in requests && Answers(requests[k], handler, q, m)
  }

  /** Every outstanding job with an id carries the call its request put. */
  predicate JobsLogged(js: seq<Job>, requests: map<Id, LoggedRequest>) {
    forall job :: job in js && job.id.Some? ==> job.id.value in requests && requests[job.id.value].call == job.call
  }

  /** The correlation between the log and the run: ids in the log were
      issued, every entry holds exactly its request's headers and queue,
      every outstanding job carries its request's call, and every message
      on every reply queue answers a logged request. */
  ghost predicate Correlated(r: RunState, handler: Handler) {
    && (forall k :: k in r.requests ==> k < r.device.nextId)
    && (forall k :: k in r.device.meta ==>
          k in r.requests && r.device.meta[k] == Meta(r.requests[k].headers, r.requests[k].returnQueue))
    && JobsLogged(Outstanding(r.device), r.requests)
    && (forall q: QueueRef, i :: 0 <= i < |Pending(r.queues, q)| ==> AnswersLogged(r.requests, handler, q, Pending(r.queues, q)[i]))
  }

  /** The log only grows: no logged request is dropped or changed. */
  predicate Extends(later: map<Id, LoggedRequest>, earlier: map<Id, LoggedRequest>) {
    forall k :: k in earlier ==> k in later && later[k] == earlier[k]
  }

  lemma StartCorrelated(discipline: Discipline, handler: Handler)
    ensures Correlated(Start(discipline), handler)
  {
  }

  lemma PutKeepsCorrelated(r: RunState, handler: Handler, m: string, h: Option<Message>, q: Option<QueueRef>, t: Option<string>)
    requires Correlated(r, handler) && !r.halted
    ensures Correlated(Apply(r, handler, Put(m, h, q, t)), handler)
    ensures Extends(Apply(r, handler, Put(m, h, q, t)).requests, r.requests)
  {
    var r' := Apply(r, handler, Put(m, h, q, t));
    var o, o' := Outstanding(r.device), Outstanding(r'.device);
    assert o' == o + [r'.device.jobs[|r.device.jobs|]];
    forall job | job in o' && job.id.Some?
      ensures job.id.value in r'.requests && r'.requests[job.id.value].call == job.call
    {
      if job in o {
        assert job.id.value < r.device.nextId;
      }
    }
    forall p: QueueRef, i | 0 <= i < |Pending(r'.queues, p)|
      ensures AnswersLogged(r'.requests, handler, p, Pending(r'.queues, p)[i])
    {
      assert r'.queues == r.queues;
      assert AnswersLogged(r.requests, handler, p, Pending(r.queues, p)[i]);
      var k :| k in r.requests && Answers(r.requests[k], handler, p, Pending(r.queues, p)[i]);
      assert r'.requests[k] == r.requests[k];
    }
  }

  /** A job left after dropping the head, or one in-flight task, was
      outstanding before. */
  lemma RemainingWereOutstanding(d: Device, d': Device, i: nat)
    requires i < |Outstanding(d)|
    requires Outstanding(d') == Outstanding(d)[..i] + Outstanding(d)[i + 1..]
    ensures forall job :: job in Outstanding(d') ==> job in Outstanding(d)
  {
    var o := Outstanding(d);
    forall job | job in Outstanding(d')
      ensures job in o
    {
      if job in o[..i] {
        var j :| 0 <= j < i && o[..i][j] == job;
        assert o[j] == job;
      } else {
        var j :| 0 <= j < |o[i + 1..]| && o[i + 1..][j] == job;
        assert o[i + 1 + j] == job;
      }
    }
  }

  /** Pushing the reply to a logged request keeps every message on every
      queue answering a logged request. */
  lemma PushKeepsAnswers(requests: map<Id, LoggedRequest>, handler: Handler, qs: Queues, k: Id, m: Message)
    requires forall q: QueueRef, i :: 0 <= i < |Pending(qs, q)| ==> AnswersLogged(requests, handler, q, Pending(qs, q)[i])
    requires k in requests && requests[k].returnQueue.Some?
    requires Answers(requests[k], handler, requests[k].returnQueue.value, m)
    ensures var qs' := Push(qs, requests[k].returnQueue.value, m);
      forall q: QueueRef, i :: 0 <= i < |Pending(qs', q)| ==> AnswersLogged(requests, handler, q, Pending(qs', q)[i])
  {
    var target := requests[k].returnQueue.value;
    var qs' := Push(qs, target, m);
    forall q: QueueRef, i | 0 <= i < |Pending(qs', q)|
      ensures AnswersLogged(requests, handler, q, Pending(qs', q)[i])
    {
      if q == target && i == |Pending(qs, q)| {
        assert Answers(requests[k], handler, q, Pending(qs', q)[i]);
      } else {
        assert Pending(qs', q)[i] == Pending(qs, q)[i];
      }
    }
  }

  lemma SerialTakeKeepsCorrelated(r: RunState, handler: Handler)
    requires Correlated(r, handler) && !r.halted && r.device.discipline == Serial
    ensures Correlated(Apply(r, handler, Take), handler)
    ensures Apply(r, handler, Take).requests == r.requests
  {
    var d := r.device;
    var s := SerialStep(d, r.queues, handler);
    if s.Stepped? {
      var d' := s.device;
      assert Outstanding(d') == Outstanding(d)[..|d.running|] + Outstanding(d)[|d.running| + 1..];
      RemainingWereOutstanding(d, d', |d.running|);
      var job := d.jobs[0];
      assert Outstanding(d)[|d.running|] == job;
      if job.id.Some? {
        var k := job.id.value;
        var q := d.meta[k].returnQueue.value;
        assert Answers(r.requests[k], handler, q, Reply(d.meta[k].headers, handler(job.call).value));
        PushKeepsAnswers(r.requests, handler, r.queues, k, Reply(d.meta[k].headers, handler(job.call).value));
      }
    }
  }

  lemma FinishKeepsCorrelated(r: RunState, handler: Handler, i: nat)
    requires Correlated(r, handler) && !r.halted
    ensures Correlated(Apply(r, handler, Finish(i)), handler)
    ensures Apply(r, handler, Finish(i)).requests == r.requests
  {
    var d := r.device;
    if d.discipline == Async && i < |d.running| {
      var c := AsyncComplete(d, r.queues, i, handler);
      assert Outstanding(c.device) == Outstanding(d)[..i] + Outstanding(d)[i + 1..];
      RemainingWereOutstanding(d, c.device, i);
      var job := d.running[i];
      assert Outstanding(d)[i] == job;
      if job.id.Some? && c.error.None? {
        var k := job.id.value;
        var m := Reply(d.meta[k].headers, handler(job.call).value);
        assert Answers(r.requests[k], handler, d.meta[k].returnQueue.value, m);
        PushKeepsAnswers(r.requests, handler, r.queues, k, m);
      }
    }
  }

  /** Every step keeps the correlation and only extends the log. */
  lemma ApplyKeepsCorrelated(r: RunState, handler: Handler, e: Event)
    requires Correlated(r, handler)
    ensures Correlated(Apply(r, handler, e), handler)
    ensures Extends(Apply(r, handler, e).requests, r.requests)
  {
    if !r.halted {
      match e
      case Put(m, h, q, t) => PutKeepsCorrelated(r, handler, m, h, q, t);
      case Take =>
        if r.device.discipline == Serial {
          SerialTakeKeepsCorrelated(r, handler);
        }
      case Finish(i) => FinishKeepsCorrelated(r, handler, i);
    }
  }

  /** Replies correlate with requests under every interleaving, for both
      disciplines, with any number of jobs queued or in flight and tasks
      finishing in any order: every message on every reply queue is the
      reply to a logged request that named that queue, made of that
      request's own routing frames and the reply text of the handler run on
      that request's own call. */
  lemma {:induction false} ReplayKeepsCorrelated(r: RunState, handler: Handler, evs: seq<Event>)
    requires Correlated(r, handler)
    ensures Correlated(Replay(r, handler, evs), handler)
    ensures Extends(Replay(r, handler, evs).requests, r.requests)
    decreases |evs|
  {
    if evs != [] {
      var r1 := Apply(r, handler, evs[0]);
      ApplyKeepsCorrelated(r, handler, evs[0]);
      ReplayKeepsCorrelated(r1, handler, evs[1..]);
    }
  }

  /** The request a `Put` logs, if it awaits a reply. */
  function PutRequests(evs: seq<Event>): (rs: seq<LoggedRequest>)
    ensures forall req :: req in rs ==>
      exists e :: e in evs && e.Put? && e.headers.Some? && req == LoggedRequest(Call(e.msg, e.topic), e.headers.value, e.returnQueue)
    decreases |evs|
  {
    if evs == [] then []
    else
      var e := evs[0];
      var here := if e.Put? && e.headers.Some? then [LoggedRequest(Call(e.msg, e.topic), e.headers.value, e.returnQueue)] else [];
      assert forall x :: x in evs[1..] ==> x in evs;
      here + PutRequests(evs[1..])
  }

  /** One step logs nothing but the request of its own `Put`. */
  lemma ApplyLogsOnlyItsPut(r: RunState, handler: Handler, e: Event)
    ensures var r' := Apply(r, handler, e);
      forall k :: k in r'.requests ==> (k in r.requests && r'.requests[k] == r.requests[k]) || r'.requests[k] in PutRequests([e])
  {
    assert [e][1..] == [];
  }

  /** Every request in the log was either there before or put by an event. */
  lemma {:induction false} LoggedRequestsArePuts(r: RunState, handler: Handler, evs: seq<Event>)
    ensures var r' := Replay(r, handler, evs);
      forall k :: k in r'.requests ==> (k in r.requests && r'.requests[k] == r.requests[k]) || r'.requests[k] in PutRequests(evs)
    decreases |evs|
  {
    if evs != [] {
      var r1 := Apply(r, handler, evs[0]);
      ApplyLogsOnlyItsPut(r, handler, evs[0]);
      LoggedRequestsArePuts(r1, handler, evs[1..]);
      assert [evs[0]][1..] == [];
      assert PutRequests(evs) == PutRequests([evs[0]]) + PutRequests(evs[1..]);
    }
  }

  /** `m` answers a `Put` of `evs` that awaited its reply on `q`: it is that
      put's headers followed by the encoded reply text of the handler run on
      that put's message and topic. */
  ghost predicate AnswersPut(evs: seq<Event>, handler: Handler, q: QueueRef, m: Message) {
    exists e :: e in evs && e.Put? && e.headers.Some? && e.returnQueue == Some(q)
      && handler(Call(e.msg, e.topic)).Returned?
      && m == e.headers.value + [Utf8.Encode(ReplyText(handler(Call(e.msg, e.topic)).value))]
  }

  /** End to end, from a new component with empty reply queues: whatever the
      interleaving, every message on every reply queue answers a `Put` of
      this run that awaited its reply on that queue. */
  lemma EveryReplyAnswersItsPut(discipline: Discipline, handler: Handler, evs: seq<Event>)
    ensures var r := Replay(Start(discipline), handler, evs);
      forall q: QueueRef, i :: 0 <= i < |Pending(r.queues, q)| ==> AnswersPut(evs, handler, q, Pending(r.queues, q)[i])
  {
    StartCorrelated(discipline, handler);
    ReplayKeepsCorrelated(Start(discipline), handler, evs);
    LoggedRequestsArePuts(Start(discipline), handler, evs);
    RepliesAnswerPuts(Replay(Start(discipline), handler, evs), handler, evs);
  }

  /** When every logged request was put by `evs`, every reply answers one
      of those puts. */
  lemma RepliesAnswerPuts(r: RunState, handler: Handler, evs: seq<Event>)
    requires Correlated(r, handler)
    requires forall k :: k in r.requests ==> r.requests[k] in PutRequests(evs)
    ensures forall q: QueueRef, i :: 0 <= i < |Pending(r.queues, q)| ==> AnswersPut(evs, handler, q, Pending(r.queues, q)[i])
  {
    forall q: QueueRef, i | 0 <= i < |Pending(r.queues, q)|
      ensures AnswersPut(evs, handler, q, Pending(r.queues, q)[i])
    {
      assert AnswersLogged(r.requests, handler, q, Pending(r.queues, q)[i]);
      var k :| k in r.requests && Answers(r.requests[k], handler, q, Pending(r.queues, q)[i]);
      var req := r.requests[k];
      assert req in PutRequests(evs);
      var e :| e in evs && e.Put? && e.headers.Some? && req == LoggedRequest(Call(e.msg, e.topic), e.headers.value, e.returnQueue);
    }
  }

  // ---- publications ---------------------------------------------------------

  /** No job carries an id and the table is empty. */
  predicate NoReplyAwaited(d: Device) {
    d.meta == map[] && forall job :: job in Outstanding(d) ==> job.id.None?
  }

  /** One step of a component that awaits no reply, fed a call without
      headers, pushes nothing and still awaits no reply. */
  lemma ApplyHeaderless(r: RunState, handler: Handler, e: Event)
    requires NoReplyAwaited(r.device)
    requires e.Put? ==> e.headers.None?
    ensures Apply(r, handler, e).queues == r.queues
    ensures NoReplyAwaited(Apply(r, handler, e).device)
  {
    if !r.halted {
      match e
      case Put(m, h, q, t) =>
        EnqueueHeaderless(r.device, m, q, t);
      case Take =>
        if r.device.discipline == Serial && SerialStep(r.device, r.queues, handler).Stepped? {
          SerialStepHeaderless(r.device, r.queues, handler);
        }
      case Finish(i) =>
        if r.device.discipline == Async && i < |r.device.running| {
          AsyncCompleteHeaderless(r.device, r.queues, i, handler);
        }
    }
  }

  lemma EnqueueHeaderless(d: Device, m: string, q: Option<QueueRef>, t: Option<string>)
    requires NoReplyAwaited(d)
    ensures NoReplyAwaited(Enqueue(d, m, None, q, t))
  {
    var d' := Enqueue(d, m, None, q, t);
    assert Outstanding(d') == Outstanding(d) + [d'.jobs[|d.jobs|]];
  }

  lemma SerialStepHeaderless(d: Device, qs: Queues, handler: Handler)
    requires NoReplyAwaited(d) && SerialStep(d, qs, handler).Stepped?
    ensures var s := SerialStep(d, qs, handler); s.queues == qs && NoReplyAwaited(s.device)
  {
    var d' := SerialStep(d, qs, handler).device;
    assert Outstanding(d)[|d.running|] == d.jobs[0];
    assert Outstanding(d') == Outstanding(d)[..|d.running|] + Outstanding(d)[|d.running| + 1..];
    RemainingWereOutstanding(d, d', |d.running|);
  }

  lemma AsyncCompleteHeaderless(d: Device, qs: Queues, i: nat, handler: Handler)
    requires NoReplyAwaited(d) && i < |d.running|
    ensures var c := AsyncComplete(d, qs, i, handler); c.queues == qs && NoReplyAwaited(c.device)
  {
    var d' := AsyncComplete(d, qs, i, handler).device;
    assert Outstanding(d)[i] == d.running[i];
    assert Outstanding(d') == Outstanding(d)[..i] + Outstanding(d)[i + 1..];
    RemainingWereOutstanding(d, d', i);
  }

  /** A component that only ever receives calls without headers, as a
      subscriber enqueues them, never pushes anything onto any reply queue,
      whatever its discipline, however many jobs are queued or in flight
      and whatever their handlers do. */
  lemma {:induction false} HeaderlessNeverReplies(r: RunState, handler: Handler, evs: seq<Event>)
    requires NoReplyAwaited(r.device)
    requires forall e :: e in evs && e.Put? ==> e.headers.None?
    ensures Replay(r, handler, evs).queues == r.queues
    ensures NoReplyAwaited(Replay(r, handler, evs).device)
    decreases |evs|
  {
    if evs != [] {
      ApplyHeaderless(r, handler, evs[0]);
      assert forall x :: x in evs[1..] ==> x in evs;
      HeaderlessNeverReplies(Apply(r, handler, evs[0]), handler, evs[1..]);
    }
  }
}

=== FILE: text.dfy ===
/** The pieces of Python's `str` behaviour the runtime relies on: `split()`
    with and without `maxsplit=1`, `int()` on a word and `str()` of an int. */
module Text {
  import opened Wrappers

  /** `str.isspace()` as used by `str.split()`: the ASCII whitespace and
      separator controls plus the Unicode space separators. */
  predicate IsSpace(c: char) {
    || c == ' '
    || ('\t' <= c <= '\r')
    || ('\U{1C}' <= c <= '\U{1F}')
    || c == '\U{85}' || c == '\U{A0}' || c == '\U{1680}'
    || ('\U{2000}' <= c <= '\U{200A}')
    || c == '\U{2028}' || c == '\U{2029}' || c == '\U{202F}'
    || c == '\U{205F}' || c == '\U{3000}'
  }

  /** A word as `split()` yields it: non-empty, no whitespace inside. */
  predicate IsWord(w: string) {
    |w| > 0 && forall i :: 0 <= i < |w| ==> !IsSpace(w[i])
  }

  predicate AllSpace(s: string) {
    forall i :: 0 <= i < |s| ==> IsSpace(s[i])
  }

  /** The number of whitespace characters `s` starts with. */
  function SpaceRun(s: string): (n: nat)
    ensures n <= |s|
    ensures forall i :: 0 <= i < n ==> IsSpace(s[i])
    ensures n < |s| ==> !IsSpace(s[n])
  {
    if |s| > 0 && IsSpace(s[0]) then 1 + SpaceRun(s[1..]) else 0
  }

  /** The number of non-whitespace characters `s` starts with. */
  function WordRun(s: string): (n: nat)
    ensures n <= |s|
    ensures forall i :: 0 <= i < n ==> !IsSpace(s[i])
    ensures n < |s| ==> IsSpace(s[n])
  {
    if |s| > 0 && !IsSpace(s[0]) then 1 + WordRun(s[1..]) else 0
  }

  /** `s.split()`: the maximal runs of non-whitespace, in order. */
  function Words(s: string): (ws: seq<string>)
    ensures forall k :: 0 <= k < |ws| ==> IsWord(ws[k])
    decreases |s|
  {
    var t := s[SpaceRun(s)..];
    if t == [] then []
    else
      var n := WordRun(t);
      [t[..n]] + Words(t[n..])
  }

  /** `split()` yields no word exactly when the string is all whitespace. */
  lemma WordsEmptyIffBlank(s: string)
    ensures Words(s) == [] <==> AllSpace(s)
  {
    var n := SpaceRun(s);
    if n < |s| {
      assert !IsSpace(s[n]);
    }
  }

  /** `s.split(maxsplit=1)`: the first word, then (if anything but whitespace
      follows it) the rest of the string with its leading whitespace dropped
      and its trailing whitespace kept. */
  function SplitOnce(s: string): (parts: seq<string>)
    ensures |parts| <= 2
  {
    var t := s[SpaceRun(s)..];
    if t == [] then []
    else
      var n := WordRun(t);
      var rest := t[n..][SpaceRun(t[n..])..];
      if rest == [] then [t[..n]] else [t[..n], rest]
  }

  /** Words joined by single spaces, as a client would format a message. */
  function JoinWords(ws: seq<string>): string {
    if |ws| == 0 then ""
    else if |ws| == 1 then ws[0]
    else ws[0] + " " + JoinWords(ws[1..])
  }

  lemma {:induction false} SpaceRunOfSuffix(s: string, m: nat)
    requires m <= SpaceRun(s)
    ensures SpaceRun(s[m..]) == SpaceRun(s) - m
    decreases m
  {
    if m > 0 {
      assert s[m..] == s[1..][m - 1..];
      SpaceRunOfSuffix(s[1..], m - 1);
    }
  }

  /** Dropping some of the leading whitespace does not change the words. */
  lemma {:induction false} WordsSkipSpace(s: string, m: nat)
    requires m <= SpaceRun(s)
    ensures Words(s[m..]) == Words(s)
  {
    SpaceRunOfSuffix(s, m);
    assert s[m..][SpaceRun(s[m..])..] == s[SpaceRun(s)..];
  }

  lemma {:induction false} WordRunOfWordThenSpace(w: string, x: string)
    requires IsWord(w)
    requires x == [] || IsSpace(x[0])
    ensures WordRun(w + x) == |w|
    decreases |w|
  {
    if |w| > 1 {
      assert (w + x)[1..] == w[1..] + x;
      WordRunOfWordThenSpace(w[1..], x);
    } else {
      assert (w + x)[1..] == x;
    }
  }

  /** `split()` undoes joining words with single spaces. */
  lemma {:induction false} WordsOfJoin(ws: seq<string>)
    requires forall k :: 0 <= k < |ws| ==> IsWord(ws[k])
    ensures Words(JoinWords(ws)) == ws
  {
    if |ws| == 1 {
      var w := ws[0];
      WordRunOfWordThenSpace(w, []);
      assert w + [] == w;
      assert w[0..|w|] == w;
    } else if |ws| > 1 {
      WordsOfWordThenText(ws[0], JoinWords(ws[1..]));
      WordsOfJoin(ws[1..]);
    }
  }

  /** The words of `w + " " + j` are `w` followed by the words of `j`. */
  lemma WordsOfWordThenText(w: string, j: string)
    requires IsWord(w)
    ensures Words(w + " " + j) == [w] + Words(j)
  {
    var s := w + " " + j;
    assert s == w + (" " + j);
    WordRunOfWordThenSpace(w, " " + j);
    assert s[0..] == s;
    assert s[0..|w|] == w;
    var tail := s[|w|..];
    assert tail == " " + j;
    WordsSkipSpace(tail, 1);
    assert tail[1..] == j;
  }

  /** `split(maxsplit=1)` against the full `split()`: it yields the first
      word and, when there are at least two words, a remainder whose own words
      are exactly the remaining words. */
  lemma {:induction false} SplitOnceAgreesWithWords(s: string)
    ensures |SplitOnce(s)| == (if |Words(s)| < 2 then |Words(s)| else 2)
    ensures |SplitOnce(s)| > 0 ==> SplitOnce(s)[0] == Words(s)[0]
    ensures |SplitOnce(s)| == 2 ==> Words(SplitOnce(s)[1]) == Words(s)[1..]
  {
    var t := s[SpaceRun(s)..];
    if t != [] {
      var after := t[WordRun(t)..];
      WordsSkipSpace(after, SpaceRun(after));
    }
  }

  /** The remainder `split(maxsplit=1)` yields is a tail of the input: its
      leading whitespace is dropped and its trailing whitespace kept. */
  lemma {:induction false} SplitOnceRestIsSuffix(s: string)
    requires |SplitOnce(s)| == 2
    ensures 0 < |SplitOnce(s)[1]| <= |s|
    ensures SplitOnce(s)[1] == s[|s| - |SplitOnce(s)[1]|..]
    ensures !IsSpace(SplitOnce(s)[1][0])
  {
    var i := SpaceRun(s);
    var t := s[i..];
    var n := WordRun(t);
    var u := t[n..];
    var k := SpaceRun(u);
    var rest := u[k..];
    assert SplitOnce(s) == [t[..n], rest];
    DropDrop(s, i, n, k);
    assert |s| - |rest| == i + n + k;
    assert rest[0] == u[k];
  }

  lemma DropDrop(s: string, i: nat, n: nat, k: nat)
    requires i <= |s| && n <= |s| - i && k <= |s| - i - n
    ensures s[i..][n..][k..] == s[i + n + k..]
  {
  }

  /** A payload written as "<word> <text>" splits back into the word and the
      text, whatever whitespace the text holds after its first character. */
  lemma SplitOnceOfJoin(w: string, text: string)
    requires IsWord(w)
    requires |text| > 0 && !IsSpace(text[0])
    ensures SplitOnce(w + " " + text) == [w, text]
  {
    var s := w + " " + text;
    assert s == w + (" " + text);
    WordRunOfWordThenSpace(w, " " + text);
    assert s[0..] == s;
    assert s[0..|w|] == w;
    assert s[|w|..][1..] == text;
    assert s[|w| + 1..] == text;
  }

  // ---- integers -----------------------------------------------------------

  predicate IsDigit(c: char) { '0' <= c <= '9' }

  function DigitValue(c: char): (d: nat)
    requires IsDigit(c)
    ensures d < 10
  {
    c as int - '0' as int
  }

  function DigitChar(d: nat): (c: char)
    requires d < 10
    ensures IsDigit(c) && DigitValue(c) == d
  {
    (d + '0' as int) as char
  }

  /** Python's numeric-literal digit groups: digits, with single underscores
      allowed between two digits. */
  predicate DigitGroups(s: string) {
    && |s| > 0
    && IsDigit(s[0])
    && (|s| == 1 || if s[1] == '_' then DigitGroups(s[2..]) else DigitGroups(s[1..]))
  }

  /** The value of the decimal digits of `s`, underscores skipped. */
  function DigitsValue(s: string): nat {
    if |s| == 0 then 0
    else
      var init := DigitsValue(s[..|s| - 1]);
      if IsDigit(s[|s| - 1]) then init * 10 + DigitValue(s[|s| - 1]) else init
  }

  /** `int(w)` on a word of `split()`: an optional sign, then digit groups;
      anything else is a ValueError. `int()` also strips surrounding
      whitespace, which a word never has. Non-ASCII decimal digits, which
      Python also accepts, are not modelled. */
  function ParseInt(w: string): (r: Result<int>)
    ensures r.Err? ==> r.error == ValueError
    ensures r.Ok? ==> |w| > 0 && IsDigit(w[|w| - 1])
    ensures r.Ok? ==> forall i :: 0 < i < |w| ==> IsDigit(w[i]) || w[i] == '_'
    ensures r.Ok? && r.value < 0 ==> w[0] == '-'
  {
    if |w| > 0 && (w[0] == '-' || w[0] == '+') then
      if DigitGroups(w[1..]) then
        DigitGroupsChars(w[1..]);
        assert forall i :: 1 <= i < |w| ==> w[i] == w[1..][i - 1];
        var v: int := DigitsValue(w[1..]);
        Ok(if w[0] == '-' then -v else v)
      else Err(ValueError)
    else if DigitGroups(w) then DigitGroupsChars(w); Ok(DigitsValue(w))
    else Err(ValueError)
  }

  /** Decimal digits of a natural number, most significant first. */
  function NatDigits(n: nat): (s: string)
    ensures |s| > 0 && forall i :: 0 <= i < |s| ==> IsDigit(s[i])
  {
    if n < 10 then [DigitChar(n)] else NatDigits(n / 10) + [DigitChar(n % 10)]
  }

  /** `str(n)` for an int. */
  function IntToString(n: int): (s: string)
    ensures |s| > 0 && (s[0] == '-' <==> n < 0)
    ensures n >= 0 ==> IsDigit(s[0])
    ensures forall i :: 0 < i < |s| ==> IsDigit(s[i])
  {
    if n < 0 then "-" + NatDigits(-n) else NatDigits(n)
  }

  lemma {:induction false} NatDigitsValue(n: nat)
    ensures DigitsValue(NatDigits(n)) == n
  {
    var s := NatDigits(n);
    if n >= 10 {
      assert s[..|s| - 1] == NatDigits(n / 10);
      NatDigitsValue(n / 10);
    }
  }

  lemma {:induction false} DigitGroupsChars(s: string)
    requires DigitGroups(s)
    ensures IsDigit(s[|s| - 1])
    ensures forall i :: 0 <= i < |s| ==> IsDigit(s[i]) || s[i] == '_'
  {
    if |s| > 1 {
      if s[1] == '_' {
        DigitGroupsChars(s[2..]);
        assert forall i :: 2 <= i < |s| ==> s[i] == s[2..][i - 2];
      } else {
        DigitGroupsChars(s[1..]);
        assert forall i :: 1 <= i < |s| ==> s[i] == s[1..][i - 1];
      }
    }
  }

  lemma {:induction false} DigitsAreGroups(s: string)
    requires |s| > 0 && forall i :: 0 <= i < |s| ==> IsDigit(s[i])
    ensures DigitGroups(s)
  {
    if |s| > 1 {
      DigitsAreGroups(s[1..]);
    }
  }

  lemma ParseIntOfGroups(t: string)
    requires DigitGroups(t)
    ensures ParseInt(t) == Ok(DigitsValue(t))
  {
  }

  lemma ParseIntOfNegativeGroups(t: string)
    requires DigitGroups(t)
    ensures ParseInt("-" + t) == Ok(0 - DigitsValue(t))
  {
    assert ("-" + t)[1..] == t;
  }

  /** `int(str(n)) == n`. */
  lemma {:induction false} IntToStringRoundTrip(n: int)
    ensures ParseInt(IntToString(n)) == Ok(n)
  {
    if n < 0 {
      DigitsAreGroups(NatDigits(-n));
      NatDigitsValue(-n);
      ParseIntOfNegativeGroups(NatDigits(-n));
    } else {
      DigitsAreGroups(NatDigits(n));
      NatDigitsValue(n);
      ParseIntOfGroups(NatDigits(n));
    }
  }

  lemma {:induction false} BadCharNotGroups(t: string, j: nat)
    requires j < |t| && !IsDigit(t[j]) && t[j] != '_'
    ensures !DigitGroups(t)
  {
    if j > 0 && |t| > 1 {
      if t[1] == '_' {
        if j >= 2 {
          BadCharNotGroups(t[2..], j - 2);
        }
      } else {
        BadCharNotGroups(t[1..], j - 1);
      }
    }
  }

  /** `int()` rejects every word holding a character other than a leading
      sign, a digit or an underscore. */
  lemma ParseIntRejectsLetters(s: string, i: nat)
    requires i < |s| && !IsDigit(s[i]) && s[i] != '_'
    requires i > 0 || (s[i] != '-' && s[i] != '+')
    ensures ParseInt(s).Err?
  {
    if s[0] == '-' || s[0] == '+' {
      BadCharNotGroups(s[1..], i - 1);
    } else {
      BadCharNotGroups(s, i);
    }
  }

  /** `str(n)` is a single word: a sign and digits, no whitespace. */
  lemma IntToStringIsWord(n: int)
    ensures IsWord(IntToString(n))
  {
    var s := IntToString(n);
    if n < 0 {
      assert forall i :: 1 <= i < |s| ==> s[i] == NatDigits(-n)[i - 1];
    }
  }
}

=== FILE: utf8.dfy ===
/** UTF-8 as Python's `str.encode('utf-8')` and strict `bytes.decode('utf-8')`
    apply it to transport frames: every string has exactly one encoding, and
    decoding accepts exactly the well-formed byte sequences (no overlong
    forms, no surrogates, nothing above U+10FFFF, no truncated sequence). */
module Utf8 {
  import opened Wrappers

  newtype uint8 = x: int | 0 <= x < 256

  type Bytes = seq<uint8>

  predicate IsContinuation(b: uint8) { 0x80 <= b <= 0xBF }

  predicate InRange(b: uint8, lo: int, hi: int) { lo <= b as int <= hi }

  /** The one to four bytes that encode one scalar value. */
  function EncodeChar(c: char): (bs: Bytes)
    ensures 1 <= |bs| <= 4
  {
    var n := c as int;
    if n < 0x80 then [n as uint8]
    else if n < 0x800 then
      [(0xC0 + n / 64) as uint8, (0x80 + n % 64) as uint8]
    else if n < 0x1_0000 then
      var t := n / 64;
      [(0xE0 + t / 64) as uint8, (0x80 + t % 64) as uint8, (0x80 + n % 64) as uint8]
    else
      var t := n / 64;
      var u := t / 64;
      [ (0xF0 + u / 64) as uint8, (0x80 + u % 64) as uint8
      , (0x80 + t % 64) as uint8, (0x80 + n % 64) as uint8 ]
  }

  /** `s.encode('utf-8')`. */
  function Encode(s: string): (bs: Bytes)
    ensures |bs| >= |s|
  {
    if s == [] then [] else EncodeChar(s[0]) + Encode(s[1..])
  }

  /** The scalar value of one well-formed two-, three- or four-byte sequence. */
  function Combine2(b0: uint8, b1: uint8): int {
    (b0 as int - 0xC0) * 64 + (b1 as int - 0x80)
  }

  function Combine3(b0: uint8, b1: uint8, b2: uint8): int {
    (b0 as int - 0xE0) * 4096 + (b1 as int - 0x80) * 64 + (b2 as int - 0x80)
  }

  function Combine4(b0: uint8, b1: uint8, b2: uint8, b3: uint8): int {
    (b0 as int - 0xF0) * 262144 + (b1 as int - 0x80) * 4096
      + (b2 as int - 0x80) * 64 + (b3 as int - 0x80)
  }

  /** The character the first well-formed sequence of `bs` encodes, and that
      sequence's length; None when `bs` does not start with one. The ranges
      of the second byte are those of the Unicode Standard's table of
      well-formed UTF-8 byte sequences (section 3.9). */
  function DecodeFirst(bs: Bytes): (r: Option<(char, nat)>)
    requires |bs| > 0
    ensures r.Some? ==> 1 <= r.value.1 <= |bs|
  {
    var b0 := bs[0];
    if b0 < 0x80 then Some((b0 as int as char, 1))
    else if 0xC2 <= b0 <= 0xDF then
      if |bs| >= 2 && IsContinuation(bs[1]) then
        Some((Combine2(b0, bs[1]) as char, 2))
      else None
    else if 0xE0 <= b0 <= 0xEF then
      var lo := if b0 == 0xE0 then 0xA0 else 0x80;
      var hi := if b0 == 0xED then 0x9F else 0xBF;
      if |bs| >= 3 && InRange(bs[1], lo, hi) && IsContinuation(bs[2]) then
        Some((Combine3(b0, bs[1], bs[2]) as char, 3))
      else None
    else if 0xF0 <= b0 <= 0xF4 then
      var lo := if b0 == 0xF0 then 0x90 else 0x80;
      var hi := if b0 == 0xF4 then 0x8F else 0xBF;
      if |bs| >= 4 && InRange(bs[1], lo, hi) && IsContinuation(bs[2]) && IsContinuation(bs[3]) then
        Some((Combine4(b0, bs[1], bs[2], bs[3]) as char, 4))
      else None
    else None
  }

  /** `bs.decode('utf-8')`: a UnicodeDecodeError unless all of `bs` is a
      sequence of well-formed encodings. */
  function Decode(bs: Bytes): (r: Result<string>)
    ensures r.Err? ==> r.error == UnicodeDecodeError
    ensures r.Ok? ==> |r.value| <= |bs|
    decreases |bs|
  {
    if bs == [] then Ok([])
    else
      match DecodeFirst(bs)
      case None => Err(UnicodeDecodeError)
      case Some((c, n)) =>
        match Decode(bs[n..])
        case Err(e) => Err(e)
        case Ok(rest) => Ok([c] + rest)
  }

  /** Division by 64 splits a value into its quotient and remainder, and
      only one such pair exists. */
  lemma DivMod64(n: int, q: int, r: int)
    requires 0 <= r < 64 && n == q * 64 + r
    ensures n / 64 == q && n % 64 == r
  {
  }

  lemma DecodeFirstOfEncodeChar(c: char, rest: Bytes)
    ensures DecodeFirst(EncodeChar(c) + rest) == Some((c, |EncodeChar(c)|))
  {
    var n := c as int;
    var bs := EncodeChar(c) + rest;
    var t := n / 64;
    var u := t / 64;
    DivMod64(n, t, n % 64);
    DivMod64(t, u, t % 64);
    DivMod64(u, u / 64, u % 64);
    if n < 0x80 {
      assert bs[0] as int == n;
    } else if n < 0x800 {
      assert Combine2(bs[0], bs[1]) == n;
    } else if n < 0x1_0000 {
      assert Combine3(bs[0], bs[1], bs[2]) == n;
    } else {
      assert Combine4(bs[0], bs[1], bs[2], bs[3]) == n;
    }
  }

  lemma EncodeCharOfDecodeFirst(bs: Bytes)
    requires |bs| > 0 && DecodeFirst(bs).Some?
    ensures var (c, n) := DecodeFirst(bs).value; EncodeChar(c) == bs[..n]
  {
    var b0 := bs[0] as int;
    if 0xC2 <= b0 <= 0xDF {
      var n := Combine2(bs[0], bs[1]);
      DivMod64(n, b0 - 0xC0, bs[1] as int - 0x80);
    } else if 0xE0 <= b0 <= 0xEF {
      var n := Combine3(bs[0], bs[1], bs[2]);
      var t := (b0 - 0xE0) * 64 + (bs[1] as int - 0x80);
      DivMod64(n, t, bs[2] as int - 0x80);
      DivMod64(t, b0 - 0xE0, bs[1] as int - 0x80);
    } else if 0xF0 <= b0 <= 0xF4 {
      var n := Combine4(bs[0], bs[1], bs[2], bs[3]);
      var u := (b0 - 0xF0) * 64 + (bs[1] as int - 0x80);
      var t := u * 64 + (bs[2] as int - 0x80);
      DivMod64(n, t, bs[3] as int - 0x80);
      DivMod64(t, u, bs[2] as int - 0x80);
      DivMod64(u, b0 - 0xF0, bs[1] as int - 0x80);
    }
  }

  /** An ASCII string encodes byte for byte. */
  lemma {:induction false} EncodeAscii(s: string)
    requires forall i :: 0 <= i < |s| ==> s[i] as int < 0x80
    ensures |Encode(s)| == |s| && forall i :: 0 <= i < |s| ==> Encode(s)[i] as int == s[i] as int
  {
    if s != [] {
      EncodeAscii(s[1..]);
      assert Encode(s) == [s[0] as int as uint8] + Encode(s[1..]);
    }
  }

  /** Decoding recovers every encoded string. */
  lemma {:induction false} DecodeEncode(s: string)
    ensures Decode(Encode(s)) == Ok(s)
  {
    if s != [] {
      var e := EncodeChar(s[0]);
      var bs := Encode(s);
      DecodeFirstOfEncodeChar(s[0], Encode(s[1..]));
      assert bs == e + Encode(s[1..]);
      assert bs[|e|..] == Encode(s[1..]);
      DecodeEncode(s[1..]);
      assert [s[0]] + s[1..] == s;
    }
  }

  /** Every byte sequence that decodes is the encoding of what it decodes
      to, so decoding is injective on the frames it accepts. */
  lemma {:induction false} EncodeDecode(bs: Bytes)
    requires Decode(bs).Ok?
    ensures Encode(Decode(bs).value) == bs
    decreases |bs|
  {
    if bs != [] {
      var n := DecodeFirst(bs).value.1;
      var rest := Decode(bs[n..]).value;
      assert Decode(bs).value == [DecodeFirst(bs).value.0] + rest;
      EncodeDecode(bs[n..]);
      EncodeFirstDecoded(bs, rest);
      assert bs == bs[..n] + bs[n..];
    }
  }

  /** The first decoded character encodes back to the bytes it came from. */
  lemma EncodeFirstDecoded(bs: Bytes, rest: string)
    requires |bs| > 0 && DecodeFirst(bs).Some?
    ensures Encode([DecodeFirst(bs).value.0] + rest) == bs[..DecodeFirst(bs).value.1] + Encode(rest)
  {
    EncodeCharOfDecodeFirst(bs);
    EncodeCons(DecodeFirst(bs).value.0, rest);
  }

  /** Encoding a string one character at a time. */
  lemma EncodeCons(c: char, s: string)
    ensures Encode([c] + s) == EncodeChar(c) + Encode(s)
  {
    assert ([c] + s)[1..] == s;
  }

  /** Encoding is injective: distinct strings never share a frame. */
  lemma EncodeInjective(s: string, t: string)
    requires Encode(s) == Encode(t)
    ensures s == t
  {
    DecodeEncode(s);
    DecodeEncode(t);
  }
}

=== FILE: wrappers.dfy ===
/** Optional values, results and the Python exceptions the runtime can raise.
    Each operation of the model returns one of these instead of raising. */
module Wrappers {

  datatype Option<+T> = None | Some(value: T)

  /** The exception classes the modelled code can raise. `ConfigError` is
      the application's `ApplicationConfigError`, `Exception` a bare
      `Exception`, each with its message; `HandlerRaised` stands for whatever
      a device handler raises. */
  datatype PyError =
    | IndexError
    | KeyError
    | ValueError
    | TypeError
    | AttributeError
    | UnicodeDecodeError
    | ConfigError(message: string)
    | Exception(message: string)
    | HandlerRaised

  datatype Result<+T> = Ok(value: T) | Err(error: PyError) {
    predicate IsFailure() { Err? }

    function PropagateFailure<U>(): Result<U>
      requires Err?
    {
      Err(error)
    }

    function Extract(): T
      requires Ok?
    {
      value
    }
  }
}
